=== FILE: README.md ===
# db-migrator, modelled in Dafny

db-migrator keeps a database schema in step with a folder of SQL scripts. A
migration is either:

- a numbered *changeset* (`0001_create_users.sql`), which is applied once; or
- an *object migration* (a function, view or procedure), which is applied again
  whenever its text changes.

The database keeps a table of applied migrations. A declared migration counts as
applied when some row has the same number, hash and name.

- `init` creates that table and marks every declared migration numbered up to a
  given number as applied, without running it. Object migrations are numbered
  9999, so a number of 9999 or more marks them too.
- `migrate` runs every declared migration that is not yet applied, in ascending
  number. It stops at the first one that fails.

To run a migration's script, the migrator does the following:

1. Split the script on a `;` that stands alone on its line.
2. Clean each piece: drop `-- ` comment lines, `/` lines and carriage returns.
3. Skip blank pieces.
4. Refuse a function, trigger or procedure body that is not closed by `;`.
5. Send the remaining pieces to the database one by one.

This project models that core and proves properties of the model:

- migration identity;
- the migrator's two-state engine;
- script splitting, cleaning and validation;
- the hex encoding of the content digest;
- file-name parsing and the database-name lookup.

Each file is a module:

| file | module | models |
|---|---|---|
| `wrappers.dfy` | `Wrappers` | `Option` (a C# null) and `Result` (a thrown exception) |
| `strings.dfy` | `Strings` | the .NET string operations the core uses: `TrimEnd`, `ToLower`, `IndexOf`, `LastIndexOf`, `Replace`, lines |
| `int32_text.dfy` | `Int32Text` | `int.Parse` with the default number style, and `Int32.ToString` |
| `utils.dfy` | `Utils` | `Utils.ComputeMd5Hash`: the digest written as lower-case hex |
| `migration.dfy` | `Migrations` | `Migration`: the factories, `ToString`, `Equals`, `GetHashCode` |
| `ordering.dfy` | `Ordering` | `OrderBy(m => m.Num)`, a stable sort |
| `scripts.dfy` | `Scripts` | splitting, `cleanupScript`, the closing-`;` test, the statement loop |
| `engine.dfy` | `Engine` | `DbMigrator`: `Init`, `Migrate`, `applyMigration`, the status counts |
| `sources.dfy` | `Sources` | `Sources`: file-name parsing, folder and archive loading, `extractDbName` |

The database provider is abstract state, not code. It has:

- whether the applied-migrations table exists;
- the rows of that table;
- the log of every statement passed to `ExecuteNonQuery`.

Three things are parameters:

- `fails`, which says whether the database rejects a statement;
- `md5`, which stands for MD5 over the UTF-8 bytes and gives any 16-byte digest;
- `now`, the clock.

## Behaviour worth knowing

- A procedure may end in `end` after its last `;`. The statement
  `create or replace procedure p is begin null; end` passes validation: its last
  `;` is exactly five characters from the end, and the test at
  `Source/DbMigrator.cs:85` refuses only when the `;` is further back
  (`Scripts.ProcedureEndingInEndAccepted`). The same text without the `;` is
  refused (`Scripts.UnclosedProcedureRefused`).
- `Init` does not switch the migrator it runs on to the initialized state: it
  never changes the provider's `DbInitialized` flag. `Migrate` on the same
  migrator still fails with "not initialized" (`Engine.MigrateAfterInitFails`).
  A second `Init` on it gets past the check and fails creating the table, which
  now exists (`Engine.InitTwiceFails`). A migrator built afresh over the new
  table is initialized (`Engine.InitThenReopen`).
- Statements are validated one at a time. When a statement is refused for an
  unclosed body, the earlier statements of the same migration have already been
  sent (`Scripts.Run`).
- A changed object migration is registered with an insert. `DbMigrator.cs`
  calls `RegisterMigration` with one argument, while the provider interface at
  `Source/DbProviders.cs:31` also takes an `isNew` flag, so the update statement
  is never chosen. The table carries a `unique (num, name)` constraint
  (`Source/DbProviders.cs:46-47`). An object migration whose old row is still
  there therefore has its script run, and then the insert fails: the stored
  hash stays the old one, and the script runs again on every later `migrate`.
  The model does not follow this last step (see "Left out").
- `Init` has one skip policy: every declared migration numbered `skipUpTo` or
  lower.
- `Source/Sources.cs:74` passes a revision as an extra first argument to
  `MakeObjectMigration`, which takes `(name, content)` at
  `Source/Migration.cs:14`. The revision takes no part in the migration.
- `Source/DbProviders.cs:82` passes the number as text to `MakeAppliedMigration`,
  which takes an `int` (`Source/Migration.cs:20`). Stored numbers are integers.

## Model

| member | source | states |
|---|---|---|
| `Migrations.MakeChangeset` | Source/Migration.cs:9-12 | keeps the given number, name and content; the hash is exactly 32 `'0'` characters |
| `Migrations.MakeObjectMigration` | Source/Migration.cs:14-18 | number 9999, the given name and content, and a 32-character lower-case hex hash that decodes to the content's MD5 digest |
| `Migrations.MakeAppliedMigration` | Source/Migration.cs:20-23 | carries number, name, hash and apply date, and no content |
| `Migrations.Same` | Source/Migration.cs:38-45 | no contract of its own; its meaning is given by `SameIsEquivalence`, `SameIgnoresContentAndDate` and `ChangesetsSameIff` |
| `Migrations.SameIsEquivalence` | Source/Migration.cs:38-45 | equality of migrations is reflexive, symmetric and transitive |
| `Migrations.SameIgnoresContentAndDate` | Source/Migration.cs:44 | content and apply date never take part in equality |
| `Migrations.ChangesetsSameIff` | Source/Migration.cs:9-12 | two changesets are equal exactly when number and name match, whatever their scripts |
| `Migrations.ObjectMigrationsSameIffDigest` | Source/Migration.cs:44 | two object migrations of one name are equal exactly when their contents have the same digest, so a changed body is not "already applied" |
| `Migrations.AppliedRecordSame` | Source/Migration.cs:20-23 | a record rebuilt from the stored number, name and hash equals the migration it was stored for |
| `Migrations.SameHashCode` | Source/Migration.cs:47-50 | equal migrations have equal hash codes, for any string hash |
| `Migrations.Display` | Source/Migration.cs:31-36 | no contract of its own; its meaning is given by `DisplayNumbered` and `DisplayObject` |
| `Migrations.DisplayNumbered` | Source/Migration.cs:33-34 | a migration not numbered 9999 renders as `#`, its number (readable back with `int.Parse`), a space and its name; the number has no leading zero, so 7 shows as `#7` |
| `Migrations.DisplayObject` | Source/Migration.cs:35 | a migration numbered 9999 renders as its name followed by ` (<hash>)` |
| `Migrations.ChangesetNumbered9999Display` | Source/Migration.cs:31-36 | a changeset numbered 9999 renders like an object migration, with the zero hash |
| `Utils.Hex` | Source/Utils.cs:14-16 | the text is two characters per digest byte |
| `Utils.HexLayout` | Source/Utils.cs:15-16 | every character is in `0-9a-f`; byte `i` is written at positions `2i` and `2i+1`, high nibble first |
| `Utils.UnhexHex` | Source/Utils.cs:14-18 | reading the hex text back two characters at a time gives the digest: the encoding loses nothing |
| `Utils.HexInjective` | Source/Utils.cs:14-18 | distinct digests never give the same text |
| `Utils.ComputeMd5Hash` | Source/Utils.cs:8-20 | the loop builds 32 lower-case hex characters that decode to the MD5 digest of the input |
| `Utils.NibbleOf` | Source/Utils.cs:16 | each hex digit stands for exactly one nibble, the one `x2` writes it for |
| `Strings.ToLower` | Source/DbMigrator.cs:82 | the same length; no capital ASCII letter is left, and only those letters change, each to its small form |
| `Strings.ToLowerIdempotent` | Source/DbMigrator.cs:82 | lower-casing twice is lower-casing once |
| `Strings.BlankIffTrimmedEmpty` | Source/DbMigrator.cs:79 | a text is blank exactly when trimming its trailing white space leaves nothing |
| `Strings.TrimEnd` | Source/DbMigrator.cs:85 | the result is the input with exactly its trailing white space removed |
| `Strings.LastIndexOf` | Source/DbMigrator.cs:85 | the last index holding the character, or -1 when none does |
| `Strings.Remove` | Source/DbMigrator.cs:116 | every occurrence of the character is gone and all other characters are kept, in number |
| `Strings.RemoveAppend` | Source/DbMigrator.cs:116 | removal distributes over concatenation, so the kept characters stay in their order |
| `Strings.RemoveOne` | Source/DbMigrator.cs:116 | a single character is dropped exactly when it is the removed one |
| `Strings.Replace` | Source/DbMigrator.cs:113 | no contract of its own; its meaning is given by `ReplaceLeftmost` and `ReplaceAbsent` |
| `Strings.ReplaceLeftmost` | Source/DbMigrator.cs:113 | the leftmost occurrence is replaced, the text before it is kept and the scan resumes after it, so occurrences never overlap and the replacement is never rescanned |
| `Strings.ReplaceCharByNothing` | Source/DbMigrator.cs:116 | replacing a one-character text by nothing is the same as removing that character |
| `Strings.ReplaceAbsent` | Source/DbMigrator.cs:113 | `Replace` leaves a text without the pattern unchanged |
| `Strings.Lines` | Source/DbMigrator.cs:107 | the lines a multiline `^`/`$` sees: at least one, none holding a line break |
| `Strings.UnlinesLines` | Source/DbMigrator.cs:107-110 | cutting a text into lines and joining them by line breaks gives the text back |
| `Strings.LinesUnlines` | Source/DbMigrator.cs:107-110 | lines without line breaks, joined and cut again, come back unchanged |
| `Int32Text.ParseInt` | Source/Sources.cs:45 | a parsed value is always a 32-bit integer; a text that parses holds only digits, white space and signs, and at least one digit; a non-empty run of digits whose value fits parses to that value |
| `Int32Text.Unsigned` | Source/Sources.cs:45 | the text after the sign reads only when it is digits followed by white space; a plain run of digits reads as its value |
| `Int32Text.ParseIntLayout` | Source/Sources.cs:45 | white space, no sign or `+` or `-`, digits and white space parse to the signed value of the digits, or fail when that value does not fit in 32 bits |
| `Int32Text.Format` | Source/Migration.cs:34 | a non-negative number is written as digits only, a negative one as `-` followed by digits; the first digit is `0` only for zero itself, which is written `0` |
| `Int32Text.NatDigits` | Source/Migration.cs:34 | at least one digit, and no leading zero: the first digit is `0` exactly for zero, written `0` |
| `Int32Text.NatDigitsValue` | Source/Migration.cs:34 | the decimal digits of a natural number have that number as their value |
| `Int32Text.ParseFormat` | Source/Migration.cs:34 | `int.Parse` of the decimal text of any 32-bit number gives the number back |
| `Int32Text.ParseFourDigits` | Source/Sources.cs:45 | four ASCII digits parse to their positional value |
| `Int32Text.LeadingWhite` | Source/Sources.cs:45 | the white space `int.Parse` skips: a leading run of tab to carriage return and space, stopping at the first other character |
| `Ordering.SortByNum` | Source/DbMigrator.cs:61 | the result is ordered by number and is a permutation of the input |
| `Ordering.SortByNumStable` | Source/DbMigrator.cs:61 | migrations of one number keep their input order |
| `Ordering.StableSortIsSortByNum` | Source/DbMigrator.cs:61 | any number-ordered arrangement that keeps ties in input order is exactly the sort's result, so the order is fully determined |
| `Ordering.ObjectMigrationsAfterLower` | Source/DbMigrator.cs:61 | in the sorted list every migration numbered below 9999 comes before every object migration |
| `Ordering.InsertByNumSorted` | Source/DbMigrator.cs:61 | inserting a migration before the first one of an equal or higher number keeps a sorted list sorted |
| `Scripts.Split` | Source/DbMigrator.cs:71 | the pieces are non-empty and contain neither separator `"\n;\n"` nor `"\n;\r\n"`; a non-empty script without a separator is its own single piece |
| `Scripts.SplitPieces` | Source/DbMigrator.cs:71 | at least one piece, and no piece holds a separator |
| `Scripts.JoinSplit` | Source/DbMigrator.cs:71 | splitting loses nothing: the pieces, with the separators found between them put back, are the script |
| `Scripts.SplitPiecesJoinWith` | Source/DbMigrator.cs:71 | pieces without a `;` line, joined by any mix of the two separators, split back into exactly those pieces, empty ones included |
| `Scripts.SplitJoinWith` | Source/DbMigrator.cs:71 | such a joined script splits into exactly its non-empty pieces, in order |
| `Scripts.DropEmptyAppend` | Source/DbMigrator.cs:71 | dropping empty pieces distributes over concatenation, so order is kept |
| `Scripts.DropEmptyOne` | Source/DbMigrator.cs:71 | a single piece is dropped exactly when it is empty |
| `Scripts.SplitPiecesJoin` | Source/DbMigrator.cs:71 | before empty pieces are dropped, splitting pieces joined by `"\n;\n"` gives exactly those pieces back |
| `Scripts.DropEmptyNonEmpty` | Source/DbMigrator.cs:71 | `RemoveEmptyEntries` keeps a list without empty pieces as it is |
| `Scripts.SplitJoin` | Source/DbMigrator.cs:71 | joining non-empty pieces, none holding a line break followed by `;`, by `"\n;\n"` and splitting again gives the pieces back, in order |
| `Scripts.FirstSeparator` | Source/DbMigrator.cs:71 | the leftmost position where either separator starts, or the end |
| `Scripts.DropEmpty` | Source/DbMigrator.cs:71 | `RemoveEmptyEntries`: a piece is kept exactly when it is an input piece and not empty |
| `Scripts.StripComments` | Source/DbMigrator.cs:107-110 | the line count is unchanged; a line starting with `-- ` becomes empty, and every other line is kept as it is |
| `Scripts.StripCommentsNoDash` | Source/DbMigrator.cs:110 | text without `-` is left unchanged by comment stripping |
| `Scripts.Cleanup` | Source/DbMigrator.cs:108-119 | the cleaned text holds no `'\r'`; each stage is characterised on its own: comment lines by `StripComments`, the two `/`-line replacements by `Strings.ReplaceLeftmost` and `Strings.ReplaceAbsent`, the `'\r'` removal by `Strings.ReplaceCharByNothing` and `Strings.RemoveAppend` |
| `Scripts.CleanupClean` | Source/DbMigrator.cs:108-119 | text with no comment line, no `/` line and no `'\r'` is left unchanged |
| `Scripts.CleanupTwoSlashLines` | Source/DbMigrator.cs:113 | `Replace` does not rescan: of two `/` lines in a row only the first is dropped |
| `Scripts.CleanupOneSlashLine` | Source/DbMigrator.cs:113 | a single `/` line is reduced to its line break |
| `Scripts.CleanupNotIdempotent` | Source/DbMigrator.cs:108-119 | cleaning the cleaned text can change it again |
| `Scripts.ClosedBySemicolon` | Source/DbMigrator.cs:85 | no contract of its own; its meaning is given by `ClosedBySemicolonIff` |
| `Scripts.ClosedBySemicolonIff` | Source/DbMigrator.cs:85 | the closing test holds exactly when the right-trimmed text has at most four characters or a `;` among its last five |
| `Scripts.NoSemicolonRefused` | Source/DbMigrator.cs:85 | a statement with no `;` passes the closing test exactly when its trimmed text has at most four characters |
| `Scripts.Accepted` | Source/DbMigrator.cs:82-86 | no contract of its own; its meaning is given by `ProcedureEndingInEndAccepted`, `UnclosedProcedureRefused` and `Run` |
| `Scripts.ProcedureEndingInEndAccepted` | Source/DbMigrator.cs:82-86 | `create or replace procedure p is begin null; end` passes validation |
| `Scripts.UnclosedProcedureRefused` | Source/DbMigrator.cs:82-86 | `create or replace procedure p is begin null end` is refused |
| `Scripts.DeclaresProcedure` | Source/DbMigrator.cs:82 | no contract of its own; its meaning is given by `DeclaresProcedureIgnoresCase` and `UnclosedBodyDeclares` |
| `Scripts.DeclaresProcedureIgnoresCase` | Source/DbMigrator.cs:82 | the declaration test reads the same on the lower-cased text, so letter case never matters |
| `Scripts.UnclosedBodyDeclares` | Source/DbMigrator.cs:82 | the lower-cased text contains `create or replace procedure` |
| `Scripts.Prepare` | Source/DbMigrator.cs:76-80 | no more statements than pieces; every statement kept is not blank and free of `'\r'` |
| `Scripts.PrepareMembers` | Source/DbMigrator.cs:76-80 | a statement is kept exactly when it is the non-blank cleanup of some piece |
| `Scripts.PrepareAppend` | Source/DbMigrator.cs:76-80 | pieces are cleaned and skipped one by one: the step distributes over concatenation, so order is kept |
| `Scripts.PrepareOne` | Source/DbMigrator.cs:78-80 | one piece gives its cleanup, or nothing when that is blank |
| `Scripts.Statements` | Source/DbMigrator.cs:71-80 | every statement sent for a script is non-blank and free of `'\r'` |
| `Scripts.StatementsOfClean` | Source/DbMigrator.cs:71-80 | a script that is one clean, non-blank statement without a separator is sent as it is |
| `Scripts.StatementsOfScript` | Source/DbMigrator.cs:71-80 | for any script built from pieces without a `;` line and either separator, the statements are the cleaned non-empty pieces that are not blank, in textual order |
| `Scripts.StatementsWithTrailingSeparator` | Source/DbMigrator.cs:71-80 | clean statements joined by either separator, with one more separator at the end, come back as exactly those statements |
| `Scripts.CleanupCrPiece` | Source/DbMigrator.cs:116 | the `'\r'` a `"\n;\r\n"` separator leaves at the end of the previous piece is removed |
| `Scripts.CrLfScript` | Source/DbMigrator.cs:71-80 | the Windows-style script `"a\r\n;\r\nb"` gives the statements `a` and `b` |
| `Scripts.PrepareClean` | Source/DbMigrator.cs:76-80 | clean, non-blank pieces pass through unchanged and in order |
| `Scripts.StatementsOfJoin` | Source/DbMigrator.cs:71-89 | a script made of clean statements joined by separator lines yields exactly those statements, in textual order |
| `Scripts.Run` | Source/DbMigrator.cs:76-99 | statements go to the database in order; the run completes exactly when every statement passes validation and the database accepts it; otherwise it stops at the first that does not, having sent the statements before it, plus that statement itself only when the database failed it |
| `Engine.Construct` | Source/DbProviders.cs:67-94 | the migrator is initialized exactly when the table exists; with no table nothing is applied, otherwise one record per row, in row order, carrying that row's number, name and hash and no script |
| `Engine.StatusFresh` | Source/DbMigrator.cs:121-126 | over a database without the table the counts are every declared migration and none applied |
| `Engine.SkippedUpTo` | Source/DbMigrator.cs:34 | a migration is skipped exactly when it is declared with a number no higher than `skipUpTo` |
| `Engine.SkippedUpToAppend` | Source/DbMigrator.cs:34 | the skip filter keeps declaration order: it distributes over concatenation |
| `Engine.IsApplied` | Source/DbMigrator.cs:51 | no contract of its own; `List.Contains` with `Equals`, whose meaning is given by `Pending` and `Migrations.AppliedRecordSame` |
| `Engine.Pending` | Source/DbMigrator.cs:51 | a migration is pending exactly when it is declared and no applied migration is equal to it |
| `Engine.PendingAppend` | Source/DbMigrator.cs:51 | the pending filter keeps declaration order |
| `Engine.NothingPending` | Source/DbMigrator.cs:51-56 | when every declared migration is applied, nothing is pending |
| `Engine.FailureOf` | Source/DbMigrator.cs:92-98 | a migration without a script fails with missing content; any other failure is a script failure naming the migration |
| `Engine.FailureOfStatement` | Source/DbMigrator.cs:76-98 | a script failure names the first statement that does not get through, every earlier one having gone through; the reason is an unclosed body exactly when that statement failed validation |
| `Engine.FirstFailing` | Source/DbMigrator.cs:61-64 | every migration before the returned position applies cleanly, and the one at it does not |
| `Engine.ApplyMigration` | Source/DbMigrator.cs:69-104 | the statements sent are appended to the log; a migration whose every statement goes through is registered once, with one row; otherwise it fails with the failing statement and nothing is registered |
| `Engine.ApplyAll` | Source/DbMigrator.cs:61-64 | applying migrations never changes the declared list, the initialized flag or whether the table exists |
| `Engine.ApplyAllResult` | Source/DbMigrator.cs:61-64 | the run succeeds exactly when every migration applies, and otherwise ends with the first failure |
| `Engine.ApplyAllRegisters` | Source/DbMigrator.cs:61-64 | exactly the migrations before the first failure are registered, in order, one row each |
| `Engine.ApplyAllExecutesAll` | Source/DbMigrator.cs:61-64 | when all migrations apply, the log gains all their statements, migration after migration |
| `Engine.ApplyAllExecutesUntilFailure` | Source/DbMigrator.cs:61-64 | on a failure the log gains the statements of the earlier migrations and of the failing one up to its failing statement, and nothing of a later migration |
| `Engine.Init` | Source/DbMigrator.cs:27-44 | on a migrator that found the table it fails and changes nothing; when the table has appeared since, creating it fails and nothing changes; otherwise it creates the table, registers exactly the skipped migrations in declaration order, runs no script and returns their count |
| `Engine.InitStatus` | Source/DbMigrator.cs:27-44 | `Init` succeeds exactly when the migrator found no table and none exists yet; the declared count never changes; on success the applied count grows by exactly the number returned, on failure it is unchanged |
| `Engine.InitTwiceFails` | Source/DbMigrator.cs:27-32 | a second `Init` on the migrator the first ran on fails creating the table and changes nothing |
| `Engine.InitThenReopen` | Source/DbMigrator.cs:19-44 | a migrator built over the database `Init` left is initialized, and its pending migrations are exactly the declared ones numbered above `skipUpTo` |
| `Engine.MigrateAfterInitFails` | Source/DbMigrator.cs:27-49 | after `Init` the same migrator is still not initialized, so `Migrate` fails with nothing sent |
| `Engine.Migrate` | Source/DbMigrator.cs:46-67 | on a migrator that is not initialized it fails with "not initialized" and changes nothing; with nothing pending it succeeds and changes nothing |
| `Engine.MigrateStatus` | Source/DbMigrator.cs:46-67 | the declared count never changes; the applied count grows by exactly the number of migrations before the first failure, and not at all on a migrator that is not initialized |
| `Engine.MigrateLoop` | Source/DbMigrator.cs:46-67 | the loop, one migration per iteration, computes the same outcome as `Migrate` |
| `Engine.MigrateAppliesPending` | Source/DbMigrator.cs:51-64 | the migrations worked through are the pending ones, stably sorted by number; those before the first failure are registered and their statements sent; the failing one is reported and not registered; nothing after it runs |
| `Engine.MigrateLeavesNothingPending` | Source/DbMigrator.cs:51-64 | after a successful run no declared migration is pending |
| `Engine.MigrateIdempotent` | Source/DbMigrator.cs:51-56 | a second `Migrate` after a successful one sends nothing and changes nothing |
| `Engine.ChangedObjectPending` | Source/DbMigrator.cs:51 | an object migration whose content digest differs from that of every applied record of its name is pending again |
| `Engine.Reload` | Source/DbProviders.cs:79-83 | no contract of its own; its meaning is given by `Construct`, `ReloadRegistered` and `ReloadAppend` |
| `Engine.ReloadRegistered` | Source/DbMigrator.cs:24 | each registered row reads back as a migration equal to the one registered |
| `Engine.ReloadAppend` | Source/DbProviders.cs:79-83 | rows are read back one by one: reading distributes over concatenation |
| `Engine.CoveredAfterReload` | Source/DbMigrator.cs:51 | when every pending migration was registered, every declared migration is applied once the rows are read back |
| `Engine.MigrateThenReopen` | Source/DbMigrator.cs:19-67 | after a successful `Migrate`, a migrator built afresh over the database it left is initialized and finds nothing pending |
| `Sources.WithoutExtension` | Source/Sources.cs:40 | the result is the name up to its last `.`, or the whole name when there is no dot |
| `Sources.NumberPrefix` | Source/Sources.cs:45 | succeeds exactly when the name has four characters that `int.Parse` accepts, with their value; fails naming the file otherwise |
| `Sources.ParseChangesetName` | Source/Sources.cs:40-52 | succeeds exactly when the stem has at least five characters and its first four parse; the name is the stem from index 5, the character at index 4 unchecked; a failure names the stem and its cause |
| `Sources.ParseArchiveName` | Source/Sources.cs:89-101 | succeeds exactly when the entry name has at least five characters and its first four parse; the name is the text from index 5 up to the first `.` and holds no dot |
| `Sources.Message` | Source/Sources.cs:49-51 | the message quotes the given file name and the expected pattern `0000_text_text_text.sql` |
| `Sources.ChangesetNameRoundTrip` | Source/Sources.cs:40-45 | a folder file `NNNN_<name>.sql` gives back its number and whole name, inner dots included |
| `Sources.ArchiveNameRoundTrip` | Source/Sources.cs:91-92 | an archive entry `NNNN_<name>.sql` with a dot-free name gives back its number and name |
| `Sources.ChangesetKeepsDots` | Source/Sources.cs:40-45 | the folder reading keeps a dotted name whole, up to the extension |
| `Sources.ArchiveDropsAfterDot` | Source/Sources.cs:91-92 | the archive reading of the same file name keeps only the part before the first dot |
| `Sources.ArchiveEntryInFolderRefused` | Source/Sources.cs:87-92 | an archive entry stored in a folder is refused, because its name starts with the folder, not with a number |
| `Sources.ReadChangesetFiles` | Source/Sources.cs:38-53 | for any name parser: succeeds exactly when every file name parses, one changeset per file in file order carrying the parsed number and name and the file's content; a failure is the error of the first file whose name does not parse |
| `Sources.ReadChangesets` | Source/Sources.cs:32-56 | succeeds exactly when every file name parses, giving one changeset per file in file order; a failure is the error of the first file whose name does not parse |
| `Sources.ReadObjects` | Source/Sources.cs:58-78 | fails when the folder is not under version control; otherwise succeeds exactly when the revision map lists every file, with one object migration per file named after it, and fails naming the first file the map does not list |
| `Sources.ReadFolders` | Source/Sources.cs:17-30 | succeeds exactly when each folder present reads; a changeset error wins, since changesets are read first; when the changesets read, an object error is returned as it is; the count is the sum of the files of the folders present |
| `Sources.ReadFoldersOrder` | Source/Sources.cs:17-30 | all changesets come first, in file order, then all object migrations |
| `Sources.ReadFoldersNoObjects` | Source/Sources.cs:25-27 | a missing objects folder adds nothing |
| `Sources.ReadFoldersNoChangesets` | Source/Sources.cs:21-23 | a missing changesets folder adds nothing |
| `Sources.ReadArchive` | Source/Sources.cs:80-105 | no archive gives no list; otherwise it succeeds exactly when every entry name parses, one changeset per entry, and fails with the error of the first entry whose name does not parse |
| `Sources.ExtractDbName` | Source/Sources.cs:160-164 | the group of the leftmost match of `Data Source=([^;]+);`, which holds no `;`; empty exactly when nothing matches |
| `Sources.ExtractDbNameLeading` | Source/Sources.cs:160-164 | `Data Source=<db>;<rest>`, with a non-empty `db` free of `;`, gives `db` |
| `Sources.Pad4Parse` | Source/Sources.cs:45 | a four-digit, zero-padded number parses back to itself |

## Left out

- The concrete Oracle and SQL Server providers (`Source/DbProviders.cs`). This covers ADO.NET connections, the SQL text of the table, the insert statements and the driver error codes. The provider is abstract state, and the `fails` parameter says which statements fail.
- Engine.Init: creating the table fails only when the table already exists (`TableExists`). The two DDL statements it sends are not added to the statement log, and other failures of them are not modelled.
- Engine.ApplyMigration: registration is an insert that always succeeds, and a changed object migration gets a second row. In the source the `unique (num, name)` constraint (`Source/DbProviders.cs:46-47`) makes that insert throw once the script has run, so the old hash stays and the script runs again on every later `Migrate`. Modelling it would make the success of a migration depend on the rows written earlier in the same run.
- The update path of `RegisterMigration` (`isNew == false`). The engine never reaches it.
- The `DbProviders.Create` factory. It is a switch on the database type.
- MD5 and the UTF-8 encoding of its input. They are the parameter `md5`, which returns 16 bytes.
- `DateTime.Now`. Each `Init` or `Migrate` call takes one timestamp `now`, and every row it writes gets that timestamp. Timestamps never take part in equality.
- The framework's string hash. It is a parameter of `Migrations.HashCode`.
- Culture rules. `ToLower` lowers ASCII letters only, and `IndexOf` is ordinal.
- `int.Parse` details. Trailing NUL characters and culture-specific signs are not modelled. The white space it skips is tab to carriage return, and space.
- Directory listing, file reading, zip extraction and XML configuration (`extractConnString`, `extractProviderType`). Files arrive as (name, content) pairs, in whatever order the listing gives. For the two folders the name is the file name without its directories.
- Sources.ReadArchive: reads the entries it is given, in order. Their names are the entries' full names inside the archive, directory entries included, as the zip library reports them; which entries the library lists is not modelled.
- `Source/VcsClients.cs`. The client is a parameter: `None` when the folder is not under version control, otherwise the set of paths its revision map lists. The `svn` process and its XML output are not modelled, and the revision found is not used.
- Sources.ReadObjects: looks each file up by its file name. The source looks it up by its path relative to the objects folder (`Source/Sources.cs:72`), which differs for files in sub-folders; directories are not modelled.
- Scripts.ClosedBySemicolon: counts characters, while .NET `Length` and `LastIndexOf` at `Source/DbMigrator.cs:85` count UTF-16 code units. A character outside the Basic Multilingual Plane counts as two there and one here.
- Sources.ParseChangesetName and Sources.ParseArchiveName: `Substring` at `Source/Sources.cs:45` and `Source/Sources.cs:91-92` counts UTF-16 code units too; the model counts characters.
- `Source/Program.cs` and `Source/Tests/QuickTests.cs`. These are command-line dispatch and a test that asserts nothing.
- Console output of `PrintStatus` and of error reports. Only the two counts are kept (`Engine.Status`). The framework's inner exception message is a parameter of `Sources.Message`.
- A `NullReferenceException` from a migration whose content is null. It is modelled as the error `MissingContent`.

=== FILE: engine.dfy ===
/**
 The migrator of `DbMigrator.cs`: a list of declared migrations, the list of
 migrations known to be applied, and a database reached through an abstract
 provider. `Init` marks migrations as applied without running them; `Migrate`
 runs, in number order, every declared migration with no equal applied record,
 and stops at the first one that fails.

 The provider is state, not code: whether the applied-migrations table exists,
 the rows in it, and the log of every statement handed to `ExecuteNonQuery`.
 Whether the database fails a statement is the parameter `fails`; the clock is
 the parameter `now`.
 */
module Engine {
  import opened Wrappers
  import opened Migrations
  import opened Scripts
  import opened Ordering
  import Utils
  import Strings

  /** One row of the applied-migrations table: number, hash, name and the time it was written. */
  datatype Row = Row(num: int, hash: string, name: string, appliedAt: int)

  /** What the provider holds: the table, if it exists, and every statement it was asked to run. */
  datatype Database = Database(tableExists: bool, rows: seq<Row>, executed: seq<string>)

  /**
   A `DbMigrator`. `initialized` is the provider's `DbInitialized`, fixed when the
   applied migrations are read at construction.
   */
  datatype Migrator = Migrator(declared: seq<Migration>, initialized: bool, applied: seq<Migration>, db: Database)

  /** The exceptions `Init` and `Migrate` end with. */
  datatype MigrateError =
    | AlreadyInitialized                 // `Init` on a migrator that found the table
    | TableExists                        // `Init` creating a table that is already there
    | NotInitialized                     // `Migrate` on a database without the table
    | MissingContent(migration: Migration)  // a migration with a null script
    | ScriptFailed(migration: Migration, fragment: string, reason: Stop)

  /** The state after an operation, and what the operation returned or threw. */
  datatype Outcome<T> = Outcome(state: Migrator, result: Result<T, MigrateError>)

  /** The row `RegisterMigration` writes for `m`. */
  function RowOf(m: Migration, now: int): Row {
    Row(m.num, m.hash, m.name, now)
  }

  function RowsOf(ms: seq<Migration>, now: int): seq<Row> {
    seq(|ms|, i requires 0 <= i < |ms| => RowOf(ms[i], now))
  }

  /** `RetrieveAppliedMigrations`: each row rebuilt as a migration without content. */
  function Reload(rows: seq<Row>): seq<Migration> {
    seq(|rows|, i requires 0 <= i < |rows| => MakeAppliedMigration(rows[i].num, rows[i].name, rows[i].hash, rows[i].appliedAt))
  }

  /**
   The constructor: the migrator is initialized exactly when the table exists;
   with no table nothing is applied, otherwise one record per row, without a script.
   */
  function Construct(declared: seq<Migration>, db: Database): (s: Migrator)
    ensures s.declared == declared && s.db == db
    ensures s.initialized == db.tableExists
    ensures |s.applied| == (if db.tableExists then |db.rows| else 0)
    ensures forall i :: 0 <= i < |s.applied| ==> s.applied[i].content.None?
    ensures db.tableExists ==> forall i :: 0 <= i < |db.rows| ==>
      && s.applied[i].num == db.rows[i].num
      && s.applied[i].name == db.rows[i].name
      && s.applied[i].hash == db.rows[i].hash
  {
    Migrator(declared, db.tableExists, if db.tableExists then Reload(db.rows) else [], db)
  }

  /** `(all, applied)`, the two counts `PrintStatus` reports. */
  function Status(s: Migrator): (nat, nat) {
    (|s.declared|, |s.applied|)
  }

  /** `_appliedMigrations.Contains(m)`, with `Equals` as the comparison. */
  predicate IsApplied(applied: seq<Migration>, m: Migration) {
    exists i :: 0 <= i < |applied| && Same(applied[i], m)
  }

  /** The declared migrations numbered `skipUpTo` or lower, in declaration order. */
  function SkippedUpTo(declared: seq<Migration>, skipUpTo: int): (r: seq<Migration>)
    ensures |r| <= |declared|
    ensures forall m :: m in r <==> m in declared && m.num <= skipUpTo
  {
    if |declared| == 0 then []
    else if declared[0].num <= skipUpTo then [declared[0]] + SkippedUpTo(declared[1..], skipUpTo)
    else SkippedUpTo(declared[1..], skipUpTo)
  }

  /** The declared migrations with no equal applied record, in declaration order. */
  function Pending(declared: seq<Migration>, applied: seq<Migration>): (r: seq<Migration>)
    ensures |r| <= |declared|
    ensures forall m :: m in r <==> m in declared && !IsApplied(applied, m)
  {
    if |declared| == 0 then []
    else if !IsApplied(applied, declared[0]) then [declared[0]] + Pending(declared[1..], applied)
    else Pending(declared[1..], applied)
  }

  /** Both filters keep the relative order of what they keep: they distribute over `+`. */
  lemma {:induction false} SkippedUpToAppend(a: seq<Migration>, b: seq<Migration>, skipUpTo: int)
    ensures SkippedUpTo(a + b, skipUpTo) == SkippedUpTo(a, skipUpTo) + SkippedUpTo(b, skipUpTo)
  {
    if |a| == 0 {
      assert a + b == b;
    } else {
      assert (a + b)[1..] == a[1..] + b;
      SkippedUpToAppend(a[1..], b, skipUpTo);
    }
  }

  lemma {:induction false} PendingAppend(a: seq<Migration>, b: seq<Migration>, applied: seq<Migration>)
    ensures Pending(a + b, applied) == Pending(a, applied) + Pending(b, applied)
  {
    if |a| == 0 {
      assert a + b == b;
    } else {
      assert (a + b)[1..] == a[1..] + b;
      PendingAppend(a[1..], b, applied);
    }
  }

  /** When everything declared is applied, nothing is pending. */
  lemma {:induction false} NothingPending(declared: seq<Migration>, applied: seq<Migration>)
    requires forall i :: 0 <= i < |declared| ==> IsApplied(applied, declared[i])
    ensures Pending(declared, applied) == []
  {
    if |declared| > 0 {
      assert IsApplied(applied, declared[0]);
      forall i | 0 <= i < |declared[1..]|
        ensures IsApplied(applied, declared[1..][i])
      {
        assert declared[1..][i] == declared[i + 1];
      }
      NothingPending(declared[1..], applied);
    }
  }

  /** The migration loop of `Migrate` stops at the first migration that does not apply cleanly. */
  predicate Applies(m: Migration, fails: string -> bool) {
    m.content.Some? && forall i :: 0 <= i < |Statements(m.content.value)| ==> Runs(Statements(m.content.value)[i], fails)
  }

  /** The statements the provider receives while `m` is applied, the failing one included. */
  function SentOf(m: Migration, fails: string -> bool): seq<string> {
    if m.content.None? then [] else Run(Statements(m.content.value), fails).sent
  }

  /**
   The exception `m` ends the run with, when it does not apply: a missing script,
   or the first statement that does not get through, with the reason.
   */
  function FailureOf(m: Migration, fails: string -> bool): (e: MigrateError)
    requires !Applies(m, fails)
    ensures e.MissingContent? <==> m.content.None?
    ensures e.MissingContent? ==> e.migration == m
    ensures !e.MissingContent? ==> e.ScriptFailed? && e.migration == m
  {
    if m.content.None? then MissingContent(m)
    else
      var stmts := Statements(m.content.value);
      var at := Run(stmts, fails).stopped.value;
      ScriptFailed(m, stmts[at.index], at.reason)
  }

  /**
   A script failure names the first statement of the migration that does not
   get through; every statement before it did; the reason is `Unterminated`
   exactly when that statement was refused for an unclosed body.
   */
  lemma FailureOfStatement(m: Migration, fails: string -> bool)
    requires !Applies(m, fails) && m.content.Some?
    ensures var e := FailureOf(m, fails); var st := Statements(m.content.value);
      exists k ::
        && 0 <= k < |st|
        && e.fragment == st[k]
        && (forall i :: 0 <= i < k ==> Runs(st[i], fails))
        && !Runs(st[k], fails)
        && (e.reason == Unterminated <==> !Accepted(st[k]))
  {
    var st := Statements(m.content.value);
    var at := Run(st, fails).stopped.value;
    assert !Runs(st[at.index], fails);
  }

  /**
   `applyMigration`: split, clean and run the script; register the migration
   only when every statement went through.
   */
  function ApplyMigration(s: Migrator, m: Migration, fails: string -> bool, now: int): (o: Outcome<()>)
    ensures o.state.declared == s.declared && o.state.initialized == s.initialized
    ensures o.state.db.tableExists == s.db.tableExists
    ensures o.state.db.executed == s.db.executed + SentOf(m, fails)
    ensures Applies(m, fails) ==>
      && o.result.Success?
      && SentOf(m, fails) == Statements(m.content.value)
      && o.state.applied == s.applied + [m]
      && o.state.db.rows == s.db.rows + [RowOf(m, now)]
    ensures !Applies(m, fails) ==>
      && o.result == Failure(FailureOf(m, fails))
      && o.state.applied == s.applied
      && o.state.db.rows == s.db.rows
  {
    match m.content
    case None => Outcome(s, Failure(MissingContent(m)))
    case Some(content) =>
      var stmts := Statements(content);
      var run := Run(stmts, fails);
      var db := s.db.(executed := s.db.executed + run.sent);
      match run.stopped
      case Some(at) => Outcome(s.(db := db), Failure(ScriptFailed(m, stmts[at.index], at.reason)))
      case None => Outcome(s.(applied := s.applied + [m], db := db.(rows := db.rows + [RowOf(m, now)])), Success(()))
  }

  /** How many migrations of `ms`, from the front, apply cleanly. */
  function FirstFailing(ms: seq<Migration>, fails: string -> bool): (k: nat)
    ensures k <= |ms|
    ensures forall i :: 0 <= i < k ==> Applies(ms[i], fails)
    ensures k < |ms| ==> !Applies(ms[k], fails)
  {
    if |ms| == 0 || !Applies(ms[0], fails) then 0 else 1 + FirstFailing(ms[1..], fails)
  }

  /** The statements of migrations that all have content, one migration after another. */
  function StatementsOf(ms: seq<Migration>): seq<string>
    requires forall i :: 0 <= i < |ms| ==> ms[i].content.Some?
  {
    if |ms| == 0 then [] else Statements(ms[0].content.value) + StatementsOf(ms[1..])
  }

  /**
   The `foreach` of `Migrate`: the migrations are applied in the given order; the
   first that fails ends the run.
   */
  function ApplyAll(s: Migrator, ms: seq<Migration>, fails: string -> bool, now: int): (o: Outcome<()>)
    ensures o.state.declared == s.declared && o.state.initialized == s.initialized
    ensures o.state.db.tableExists == s.db.tableExists
    decreases |ms|
  {
    if |ms| == 0 then Outcome(s, Success(()))
    else
      var first := ApplyMigration(s, ms[0], fails, now);
      if first.result.Failure? then Outcome(first.state, Failure(first.result.error))
      else ApplyAll(first.state, ms[1..], fails, now)
  }

  /** The run succeeds exactly when every migration applies; otherwise it ends with the first failure. */
  lemma {:induction false} ApplyAllResult(s: Migrator, ms: seq<Migration>, fails: string -> bool, now: int)
    decreases |ms|
    ensures var o := ApplyAll(s, ms, fails, now); var k := FirstFailing(ms, fails);
      && (o.result.Success? <==> k == |ms|)
      && (k < |ms| ==> o.result == Failure(FailureOf(ms[k], fails)))
  {
    if |ms| > 0 && Applies(ms[0], fails) {
      var first := ApplyMigration(s, ms[0], fails, now);
      ApplyAllResult(first.state, ms[1..], fails, now);
    }
  }

  /** Exactly the migrations before the first failure are registered, in order, each once. */
  lemma ApplyAllRegisters(s: Migrator, ms: seq<Migration>, fails: string -> bool, now: int)
    ensures var o := ApplyAll(s, ms, fails, now); var k := FirstFailing(ms, fails);
      && o.state.applied == s.applied + ms[..k]
      && o.state.db.rows == s.db.rows + RowsOf(ms[..k], now)
  {
    ApplyAllApplied(s, ms, fails, now);
    ApplyAllRows(s, ms, fails, now);
  }

  /** A run that stops at its first migration registers nothing. */
  lemma ApplyAllStops(s: Migrator, ms: seq<Migration>, fails: string -> bool, now: int)
    requires |ms| == 0 || !Applies(ms[0], fails)
    ensures var o := ApplyAll(s, ms, fails, now);
      && FirstFailing(ms, fails) == 0
      && o.state.applied == s.applied
      && o.state.db.rows == s.db.rows
  {
  }

  lemma {:induction false} ApplyAllApplied(s: Migrator, ms: seq<Migration>, fails: string -> bool, now: int)
    ensures ApplyAll(s, ms, fails, now).state.applied == s.applied + ms[..FirstFailing(ms, fails)]
    decreases |ms|
  {
    if |ms| == 0 || !Applies(ms[0], fails) {
      ApplyAllStops(s, ms, fails, now);
      assert ms[..0] == [];
    } else {
      var mid := ApplyMigration(s, ms[0], fails, now).state;
      ApplyAllCons(s, ms, fails, now);
      ApplyAllApplied(mid, ms[1..], fails, now);
      var j := FirstFailing(ms[1..], fails);
      PrefixCons(ms, j, now);
      assert mid.applied == s.applied + [ms[0]];
      Strings.Associative(s.applied, [ms[0]], ms[1..][..j]);
    }
  }

  lemma {:induction false} ApplyAllRows(s: Migrator, ms: seq<Migration>, fails: string -> bool, now: int)
    ensures ApplyAll(s, ms, fails, now).state.db.rows == s.db.rows + RowsOf(ms[..FirstFailing(ms, fails)], now)
    decreases |ms|
  {
    if |ms| == 0 || !Applies(ms[0], fails) {
      ApplyAllStops(s, ms, fails, now);
      assert ms[..0] == [];
    } else {
      var mid := ApplyMigration(s, ms[0], fails, now).state;
      ApplyAllCons(s, ms, fails, now);
      ApplyAllRows(mid, ms[1..], fails, now);
      var j := FirstFailing(ms[1..], fails);
      PrefixCons(ms, j, now);
      assert mid.db.rows == s.db.rows + [RowOf(ms[0], now)];
      Strings.Associative(s.db.rows, [RowOf(ms[0], now)], RowsOf(ms[1..][..j], now));
    }
  }

  /** When every migration applies, the statements sent are all of theirs, one migration after another. */
  lemma {:induction false} ApplyAllExecutesAll(s: Migrator, ms: seq<Migration>, fails: string -> bool, now: int)
    requires FirstFailing(ms, fails) == |ms|
    ensures ApplyAll(s, ms, fails, now).state.db.executed == s.db.executed + StatementsOf(ms)
    decreases |ms|
  {
    if |ms| > 0 {
      var mid := ApplyMigration(s, ms[0], fails, now).state;
      ApplyAllCons(s, ms, fails, now);
      ApplyAllExecutesAll(mid, ms[1..], fails, now);
      StatementsOfHead(ms);
      Strings.Associative(s.db.executed, Statements(ms[0].content.value), StatementsOf(ms[1..]));
    }
  }

  /**
   When migration `k` is the first that fails, the statements sent are those of
   the migrations before it, then the ones it got through, the failing one last;
   nothing of a later migration is sent.
   */
  lemma {:induction false} ApplyAllExecutesUntilFailure(s: Migrator, ms: seq<Migration>, fails: string -> bool, now: int)
    requires FirstFailing(ms, fails) < |ms|
    ensures var k := FirstFailing(ms, fails);
      ApplyAll(s, ms, fails, now).state.db.executed == s.db.executed + StatementsOf(ms[..k]) + SentOf(ms[k], fails)
    decreases |ms|
  {
    var k := FirstFailing(ms, fails);
    if !Applies(ms[0], fails) {
      ApplyAllFailsFirst(s, ms, fails, now);
      assert ms[..k] == [];
    } else {
      var mid := ApplyMigration(s, ms[0], fails, now).state;
      var j := FirstFailing(ms[1..], fails);
      ApplyAllCons(s, ms, fails, now);
      ApplyAllExecutesUntilFailure(mid, ms[1..], fails, now);
      StatementsOfCons(ms, j);
      assert ms[1..][j] == ms[k];
      var first := Statements(ms[0].content.value);
      var between := StatementsOf(ms[1..][..j]);
      assert mid.db.executed == s.db.executed + first;
      Strings.Associative(s.db.executed, first, between);
    }
  }

  /** A first migration that does not apply ends the run with what it sent. */
  lemma ApplyAllFailsFirst(s: Migrator, ms: seq<Migration>, fails: string -> bool, now: int)
    requires |ms| > 0 && !Applies(ms[0], fails)
    ensures ApplyAll(s, ms, fails, now).state.db.executed == s.db.executed + SentOf(ms[0], fails)
  {
  }

  /** A migration that applies hands the run on to the rest, from the state it leaves. */
  lemma ApplyAllCons(s: Migrator, ms: seq<Migration>, fails: string -> bool, now: int)
    requires |ms| > 0 && Applies(ms[0], fails)
    ensures var mid := ApplyMigration(s, ms[0], fails, now).state;
      && mid.db.executed == s.db.executed + Statements(ms[0].content.value)
      && FirstFailing(ms, fails) == FirstFailing(ms[1..], fails) + 1
      && ApplyAll(s, ms, fails, now) == ApplyAll(mid, ms[1..], fails, now)
  {
  }

  lemma StatementsOfHead(ms: seq<Migration>)
    requires |ms| > 0 && forall i :: 0 <= i < |ms| ==> ms[i].content.Some?
    ensures StatementsOf(ms) == Statements(ms[0].content.value) + StatementsOf(ms[1..])
  {
  }

  /** The first `j + 1` migrations are the first one and `j` of the rest. */
  lemma PrefixCons(ms: seq<Migration>, j: nat, now: int)
    requires j < |ms|
    ensures ms[..j + 1] == [ms[0]] + ms[1..][..j]
    ensures RowsOf(ms[..j + 1], now) == [RowOf(ms[0], now)] + RowsOf(ms[1..][..j], now)
  {
    assert ms[..j + 1] == [ms[0]] + ms[1..][..j];
  }

  lemma StatementsOfCons(ms: seq<Migration>, j: nat)
    requires j < |ms|
    requires forall i :: 0 <= i <= j ==> ms[i].content.Some?
    ensures StatementsOf(ms[..j + 1]) == Statements(ms[0].content.value) + StatementsOf(ms[1..][..j])
  {
    assert ms[..j + 1][1..] == ms[1..][..j];
  }

  /**
   `Init`: on a database without the table, create it and register every declared
   migration numbered `skipUpTo` or lower, without running any script; return
   how many were registered. A migrator that found the table refuses; creating a
   table that appeared since construction fails in the database.
   */
  function Init(s: Migrator, skipUpTo: int, now: int): (o: Outcome<nat>)
    ensures o.state.declared == s.declared && o.state.initialized == s.initialized
    ensures o.state.db.executed == s.db.executed
    ensures s.initialized ==> o == Outcome(s, Failure(AlreadyInitialized))
    ensures !s.initialized && s.db.tableExists ==> o == Outcome(s, Failure(TableExists))
    ensures !s.initialized && !s.db.tableExists ==>
      var skipped := SkippedUpTo(s.declared, skipUpTo);
      && o.result == Success(|skipped|)
      && o.state.db.tableExists
      && o.state.applied == s.applied + skipped
      && o.state.db.rows == RowsOf(skipped, now)
  {
    if s.initialized then Outcome(s, Failure(AlreadyInitialized))
    else if s.db.tableExists then Outcome(s, Failure(TableExists))
    else
      var skipped := SkippedUpTo(s.declared, skipUpTo);
      var db := s.db.(tableExists := true, rows := RowsOf(skipped, now));
      Outcome(s.(applied := s.applied + skipped, db := db), Success(|skipped|))
  }

  /**
   `Migrate`: on an initialized database, apply the pending migrations ordered by
   number, stopping at the first that fails.
   */
  function Migrate(s: Migrator, fails: string -> bool, now: int): (o: Outcome<()>)
    ensures o.state.declared == s.declared && o.state.initialized == s.initialized
    ensures o.state.db.tableExists == s.db.tableExists
    ensures !s.initialized ==> o == Outcome(s, Failure(NotInitialized))
    ensures s.initialized && Pending(s.declared, s.applied) == [] ==> o == Outcome(s, Success(()))
  {
    if !s.initialized then Outcome(s, Failure(NotInitialized))
    else
      var toBeApplied := Pending(s.declared, s.applied);
      if |toBeApplied| == 0 then Outcome(s, Success(()))
      else ApplyAll(s, SortByNum(toBeApplied), fails, now)
  }

  /** The loop of `Migrate`, one migration per iteration, as the source writes it. */
  method MigrateLoop(s: Migrator, fails: string -> bool, now: int) returns (o: Outcome<()>)
    ensures o == Migrate(s, fails, now)
  {
    if !s.initialized {
      return Outcome(s, Failure(NotInitialized));
    }
    var toBeApplied := Pending(s.declared, s.applied);
    if |toBeApplied| == 0 {
      return Outcome(s, Success(()));
    }
    var ordered := SortByNum(toBeApplied);
    var state := s;
    var i := 0;
    while i < |ordered|
      invariant 0 <= i <= |ordered|
      invariant ApplyAll(state, ordered[i..], fails, now) == ApplyAll(s, ordered, fails, now)
    {
      var step := ApplyMigration(state, ordered[i], fails, now);
      if step.result.Failure? {
        return Outcome(step.state, Failure(step.result.error));
      }
      assert ordered[i..][1..] == ordered[i + 1..];
      state := step.state;
      i := i + 1;
    }
    return Outcome(state, Success(()));
  }

  /** The migrations `Migrate` works through: the pending ones, stably ordered by number. */
  function ToBeApplied(s: Migrator): seq<Migration> {
    SortByNum(Pending(s.declared, s.applied))
  }

  /**
   On an initialized database `Migrate` works through the pending migrations in
   ascending number: those before the first failure are registered, in that
   order, and their statements sent; the failing one is reported and is not
   registered; nothing after it runs.
   */
  lemma MigrateAppliesPending(s: Migrator, fails: string -> bool, now: int)
    requires s.initialized
    ensures var o := Migrate(s, fails, now); var todo := ToBeApplied(s); var k := FirstFailing(todo, fails);
      && SortedByNum(todo)
      && multiset(todo) == multiset(Pending(s.declared, s.applied))
      && o.state.applied == s.applied + todo[..k]
      && o.state.db.rows == s.db.rows + RowsOf(todo[..k], now)
      && (o.result.Success? <==> k == |todo|)
      && (k == |todo| ==> o.state.db.executed == s.db.executed + StatementsOf(todo))
      && (k < |todo| ==>
            && o.result == Failure(FailureOf(todo[k], fails))
            && o.state.db.executed == s.db.executed + StatementsOf(todo[..k]) + SentOf(todo[k], fails))
  {
    var todo := ToBeApplied(s);
    assert Migrate(s, fails, now) == ApplyAll(s, todo, fails, now);
    ApplyAllResult(s, todo, fails, now);
    ApplyAllRegisters(s, todo, fails, now);
    if FirstFailing(todo, fails) == |todo| {
      ApplyAllExecutesAll(s, todo, fails, now);
    } else {
      ApplyAllExecutesUntilFailure(s, todo, fails, now);
    }
  }

  lemma IsAppliedAppend(a: seq<Migration>, b: seq<Migration>, m: Migration)
    ensures IsApplied(a, m) ==> IsApplied(a + b, m)
    ensures m in b ==> IsApplied(a + b, m)
  {
    if IsApplied(a, m) {
      var i :| 0 <= i < |a| && Same(a[i], m);
      assert (a + b)[i] == a[i];
    }
    if m in b {
      var i :| 0 <= i < |b| && b[i] == m;
      assert (a + b)[|a| + i] == m;
    }
  }

  /** After a successful `Migrate`, no declared migration is pending. */
  lemma MigrateLeavesNothingPending(s: Migrator, fails: string -> bool, now: int)
    requires Migrate(s, fails, now).result.Success?
    ensures var o := Migrate(s, fails, now); Pending(o.state.declared, o.state.applied) == []
  {
    var o := Migrate(s, fails, now);
    MigrateAppliesPending(s, fails, now);
    var todo := ToBeApplied(s);
    assert todo[..|todo|] == todo;
    forall i | 0 <= i < |s.declared|
      ensures IsApplied(o.state.applied, s.declared[i])
    {
      var m := s.declared[i];
      IsAppliedAppend(s.applied, todo, m);
      if !IsApplied(s.applied, m) {
        assert m in Pending(s.declared, s.applied);
        assert m in multiset(todo);
      }
    }
    NothingPending(s.declared, o.state.applied);
  }

  /** A second `Migrate` after a successful one runs nothing and changes nothing. */
  lemma MigrateIdempotent(s: Migrator, fails: string -> bool, now: int, fails2: string -> bool, now2: int)
    requires Migrate(s, fails, now).result.Success?
    ensures var o := Migrate(s, fails, now); Migrate(o.state, fails2, now2) == Outcome(o.state, Success(()))
  {
    MigrateLeavesNothingPending(s, fails, now);
  }

  /**
   `Init` leaves the migrator it ran on uninitialized, so `Migrate` on that same
   migrator still fails, with nothing sent.
   */
  lemma MigrateAfterInitFails(s: Migrator, skipUpTo: int, now: int, fails: string -> bool, now2: int)
    requires !s.initialized
    ensures var after := Init(s, skipUpTo, now).state;
      && after.db.tableExists
      && Migrate(after, fails, now2) == Outcome(after, Failure(NotInitialized))
  {
  }

  /**
   A second `Init` on the migrator the first one ran on gets past the
   initialized check, but the table is there now: it fails and changes nothing.
   */
  lemma InitTwiceFails(s: Migrator, skipUpTo: int, now: int, skipUpTo2: int, now2: int)
    requires !s.initialized
    ensures var after := Init(s, skipUpTo, now).state;
      Init(after, skipUpTo2, now2) == Outcome(after, Failure(TableExists))
  {
  }

  /** Each row `RegisterMigration` writes reads back as the same migration. */
  lemma ReloadRegistered(ms: seq<Migration>, now: int)
    ensures |Reload(RowsOf(ms, now))| == |ms|
    ensures forall i :: 0 <= i < |ms| ==> Same(Reload(RowsOf(ms, now))[i], ms[i])
  {
  }

  /**
   A migrator built over the database `Init` left behind is initialized, and the
   migrations pending for it are exactly the declared ones numbered above
   `skipUpTo`.
   */
  lemma InitThenReopen(declared: seq<Migration>, db: Database, skipUpTo: int, now: int)
    requires !db.tableExists
    ensures var o := Init(Construct(declared, db), skipUpTo, now);
      var t := Construct(declared, o.state.db);
      && o.result.Success?
      && t.initialized
      && forall m :: m in Pending(t.declared, t.applied) <==> m in declared && m.num > skipUpTo
  {
    var o := Init(Construct(declared, db), skipUpTo, now);
    var t := Construct(declared, o.state.db);
    var skipped := SkippedUpTo(declared, skipUpTo);
    assert t.applied == Reload(RowsOf(skipped, now));
    ReloadRegistered(skipped, now);
    forall m | m in declared
      ensures IsApplied(t.applied, m) <==> m.num <= skipUpTo
    {
      if m.num <= skipUpTo {
        var i :| 0 <= i < |skipped| && skipped[i] == m;
        assert Same(t.applied[i], m);
      }
      if IsApplied(t.applied, m) {
        var i :| 0 <= i < |t.applied| && Same(t.applied[i], m);
        assert skipped[i] in skipped;
      }
    }
  }

  /**
   An object migration whose body changed is pending again: no applied record of
   that name carries the digest of the new body.
   */
  lemma ChangedObjectPending(declared: seq<Migration>, applied: seq<Migration>, name: string, c1: string, c2: string, md5: string -> Utils.Digest)
    requires MakeObjectMigration(name, c2, md5) in declared
    requires md5(c1) != md5(c2)
    requires forall i :: 0 <= i < |applied| && applied[i].num == ObjectMigrationNum && applied[i].name == name ==>
      Same(applied[i], MakeObjectMigration(name, c1, md5))
    ensures MakeObjectMigration(name, c2, md5) in Pending(declared, applied)
  {
    ObjectMigrationsSameIffDigest(name, c1, c2, md5);
  }

  /**
   `Init` succeeds exactly when the migrator found no table and none has appeared
   since; it then adds to the applied count exactly the number it returns.
   */
  lemma InitStatus(s: Migrator, skipUpTo: int, now: int)
    ensures var o := Init(s, skipUpTo, now);
      && (o.result.Success? <==> !s.initialized && !s.db.tableExists)
      && Status(o.state).0 == Status(s).0
      && (o.result.Success? ==> Status(o.state).1 == Status(s).1 + o.result.value)
      && (o.result.Failure? ==> Status(o.state) == Status(s))
  {
  }

  /** A migrator built over a database without the table counts every declared migration and none applied. */
  lemma StatusFresh(declared: seq<Migration>, db: Database)
    requires !db.tableExists
    ensures Status(Construct(declared, db)) == (|declared|, 0)
  {
  }

  /**
   `Migrate` never changes the declared count, and adds to the applied count
   exactly the migrations that went through before the first failure.
   */
  lemma MigrateStatus(s: Migrator, fails: string -> bool, now: int)
    ensures var o := Migrate(s, fails, now);
      && Status(o.state).0 == Status(s).0
      && (!s.initialized ==> Status(o.state) == Status(s))
      && (s.initialized ==> Status(o.state).1 == Status(s).1 + FirstFailing(ToBeApplied(s), fails))
  {
    if s.initialized {
      MigrateAppliesPending(s, fails, now);
    }
  }

  /** Reading rows back is done row by row: it distributes over `+`. */
  lemma ReloadAppend(a: seq<Row>, b: seq<Row>)
    ensures Reload(a + b) == Reload(a) + Reload(b)
  {
  }

  /** A migration equal to some entry of the later list is applied in the joined list. */
  lemma {:induction false} IsAppliedLater(a: seq<Migration>, b: seq<Migration>, i: nat, m: Migration)
    requires i < |b| && Same(b[i], m)
    ensures IsApplied(a + b, m)
  {
    assert (a + b)[|a| + i] == b[i];
  }

  /**
   After a successful `Migrate` on a migrator built over a database with the
   table, a migrator built afresh over the database it left finds nothing
   pending: every migration it ran was registered and reads back as itself.
   */
  lemma MigrateThenReopen(declared: seq<Migration>, db: Database, fails: string -> bool, now: int)
    requires db.tableExists
    requires Migrate(Construct(declared, db), fails, now).result.Success?
    ensures var o := Migrate(Construct(declared, db), fails, now);
      var t := Construct(declared, o.state.db);
      t.initialized && Pending(declared, t.applied) == []
  {
    var s := Construct(declared, db);
    var o := Migrate(s, fails, now);
    MigrateAppliesPending(s, fails, now);
    var todo := ToBeApplied(s);
    assert todo[..|todo|] == todo;
    var t := Construct(declared, o.state.db);
    ReloadAppend(db.rows, RowsOf(todo, now));
    assert t.applied == s.applied + Reload(RowsOf(todo, now));
    assert forall m :: m in Pending(declared, s.applied) ==> m in multiset(todo);
    CoveredAfterReload(declared, s.applied, todo, now);
    NothingPending(declared, t.applied);
  }

  /**
   When every pending migration is among those registered, every declared
   migration is applied once the registered rows are read back.
   */
  lemma CoveredAfterReload(declared: seq<Migration>, applied: seq<Migration>, ran: seq<Migration>, now: int)
    requires forall m :: m in Pending(declared, applied) ==> m in ran
    ensures forall i :: 0 <= i < |declared| ==> IsApplied(applied + Reload(RowsOf(ran, now)), declared[i])
  {
    ReloadRegistered(ran, now);
    forall i | 0 <= i < |declared|
      ensures IsApplied(applied + Reload(RowsOf(ran, now)), declared[i])
    {
      var m := declared[i];
      IsAppliedAppend(applied, Reload(RowsOf(ran, now)), m);
      if !IsApplied(applied, m) {
        assert m in Pending(declared, applied);
        var j :| 0 <= j < |ran| && ran[j] == m;
        IsAppliedLater(applied, Reload(RowsOf(ran, now)), j, m);
      }
    }
  }
}

=== FILE: int32_text.dfy ===
/**
 Decimal text of 32-bit integers: `int.Parse(string)` with the default
 `NumberStyles.Integer` and `Int32.ToString()`, both with the invariant
 culture's signs `"+"` and `"-"`.
 */
module Int32Text {
  import opened Wrappers
  import Strings

  const MinInt32: int := -0x8000_0000
  const MaxInt32: int := 0x7FFF_FFFF

  predicate IsInt32(n: int) {
    MinInt32 <= n <= MaxInt32
  }

  predicate IsDigit(c: char) {
    '0' <= c <= '9'
  }

  /** The white space `NumberStyles.AllowLeadingWhite`/`AllowTrailingWhite` skip. */
  predicate IsNumberWhite(c: char) {
    ('\t' <= c <= '\r') || c == ' '
  }

  /** A character `int.Parse` can accept somewhere in its input: a digit, white space or a sign. */
  predicate IsNumberChar(c: char) {
    IsDigit(c) || IsNumberWhite(c) || c == '+' || c == '-'
  }

  predicate AllDigits(s: string) {
    forall i :: 0 <= i < |s| ==> IsDigit(s[i])
  }

  predicate AllNumberWhite(s: string) {
    forall i :: 0 <= i < |s| ==> IsNumberWhite(s[i])
  }

  function DigitValue(c: char): nat
    requires IsDigit(c)
  {
    c as int - '0' as int
  }

  function DigitChar(d: nat): (c: char)
    requires d < 10
    ensures IsDigit(c) && DigitValue(c) == d
  {
    (d + '0' as int) as char
  }

  /** The value of a run of decimal digits, most significant first. */
  function DigitsValue(s: string): nat
    requires AllDigits(s)
  {
    if |s| == 0 then 0 else DigitsValue(s[..|s| - 1]) * 10 + DigitValue(s[|s| - 1])
  }

  /** Number of leading characters of `s` satisfying the white-space test. */
  function LeadingWhite(s: string): (n: nat)
    ensures n <= |s|
    ensures AllNumberWhite(s[..n])
    ensures n < |s| ==> !IsNumberWhite(s[n])
  {
    if |s| == 0 || !IsNumberWhite(s[0]) then 0 else 1 + LeadingWhite(s[1..])
  }

  /** Number of leading decimal digits of `s`. */
  function LeadingDigits(s: string): (n: nat)
    ensures n <= |s|
    ensures AllDigits(s[..n])
    ensures n < |s| ==> !IsDigit(s[n])
  {
    if |s| == 0 || !IsDigit(s[0]) then 0 else 1 + LeadingDigits(s[1..])
  }

  /**
   The part of `int.Parse` after the sign: one or more digits, then only white
   space; the value of the digits.
   */
  function Unsigned(u: string): (r: Option<nat>)
    ensures r.Some? ==> |u| > 0 && IsDigit(u[0]) && forall i :: 0 <= i < |u| ==> IsDigit(u[i]) || IsNumberWhite(u[i])
    ensures |u| > 0 && AllDigits(u) ==> r == Some(DigitsValue(u))
  {
    AllLeadingDigits(u);
    assert u[..|u|] == u;
    var d := LeadingDigits(u);
    if d == 0 || !AllNumberWhite(u[d..]) then None
    else
      assert forall i :: d <= i < |u| ==> u[i] == u[d..][i - d];
      Some(DigitsValue(u[..d]))
  }

  /**
   `int.Parse(s)`: optional white space, an optional `+` or `-`, one or more
   digits, optional white space; `None` where the framework throws a
   `FormatException` or an `OverflowException`.
   */
  function ParseInt(s: string): (r: Option<int>)
    ensures r.Some? ==> IsInt32(r.value)
    ensures |s| > 0 && AllDigits(s) && DigitsValue(s) <= MaxInt32 ==> r == Some(DigitsValue(s))
    ensures r.Some? ==> forall i :: 0 <= i < |s| ==> IsNumberChar(s[i])
    ensures r.Some? ==> exists i :: 0 <= i < |s| && IsDigit(s[i])
  {
    NoLeadingWhiteBeforeDigit(s);
    assert s[0..] == s;
    var w := LeadingWhite(s);
    var signLen := if w < |s| && (s[w] == '+' || s[w] == '-') then 1 else 0;
    var negative := signLen == 1 && s[w] == '-';
    match Unsigned(s[w + signLen..])
    case None => None
    case Some(magnitude) =>
      SignedChars(s, w, signLen, s[w + signLen..]);
      var value: int := if negative then -(magnitude as int) else magnitude;
      if IsInt32(value) then Some(value) else None
  }

  /** White space, at most one sign, then digits and white space: every character is one `int.Parse` accepts. */
  lemma {:induction false} SignedChars(s: string, w: nat, sl: nat, u: string)
    requires w + sl < |s| && u == s[w + sl..]
    requires AllNumberWhite(s[..w])
    requires sl <= 1 && (sl == 1 ==> s[w] == '+' || s[w] == '-')
    requires forall i :: 0 <= i < |u| ==> IsDigit(u[i]) || IsNumberWhite(u[i])
    requires IsDigit(u[0])
    ensures forall i :: 0 <= i < |s| ==> IsNumberChar(s[i])
    ensures IsDigit(s[w + sl])
  {
    forall i | 0 <= i < |s|
      ensures IsNumberChar(s[i])
    {
      if i < w {
        assert s[..w][i] == s[i];
      } else if i >= w + sl {
        assert u[i - w - sl] == s[i];
      }
    }
  }

  /**
   What `int.Parse` makes of white space, a sign (none, `+` or `-`), digits and
   white space: the signed value of the digits, or a failure when it does not
   fit in 32 bits.
   */
  lemma {:induction false} ParseIntLayout(w1: string, sign: string, d: string, w2: string)
    requires AllNumberWhite(w1) && AllNumberWhite(w2)
    requires sign == "" || sign == "+" || sign == "-"
    requires |d| > 0 && AllDigits(d)
    ensures var v := if sign == "-" then -(DigitsValue(d) as int) else DigitsValue(d);
      ParseInt(w1 + sign + d + w2) == if IsInt32(v) then Some(v) else None
  {
    var s := w1 + sign + d + w2;
    LayoutParts(w1, sign, d, w2, s);
    ParseIntParts(s, |w1|, |sign|, sign == "-", DigitsValue(d));
  }

  lemma {:induction false} LayoutParts(w1: string, sign: string, d: string, w2: string, s: string)
    requires AllNumberWhite(w1) && AllNumberWhite(w2)
    requires sign == "" || sign == "+" || sign == "-"
    requires |d| > 0 && AllDigits(d)
    requires s == w1 + sign + d + w2
    ensures LeadingWhite(s) == |w1| && |w1| < |s| && |w1| + |sign| <= |s|
    ensures |sign| == if s[|w1|] == '+' || s[|w1|] == '-' then 1 else 0
    ensures (|sign| == 1 && s[|w1|] == '-') == (sign == "-")
    ensures Unsigned(s[|w1| + |sign|..]) == Some(DigitsValue(d))
  {
    var rest := sign + d + w2;
    Strings.Associative(w1, sign, d);
    Strings.Associative(w1 + sign, d, w2);
    Strings.Associative(w1, sign + d, w2);
    Strings.Associative(sign, d, w2);
    assert rest[0] == if sign == "" then d[0] else sign[0];
    LeadingWhiteSkips(w1, rest);
    assert s[|w1|] == rest[0];
    assert s[|w1| + |sign|..] == d + w2;
    UnsignedLayout(d, w2);
  }

  /** `ParseInt` read off its parts: the leading white space, the sign and the unsigned rest. */
  lemma {:induction false} ParseIntParts(s: string, w: nat, sl: nat, negative: bool, m: nat)
    requires LeadingWhite(s) == w && w < |s|
    requires sl == if s[w] == '+' || s[w] == '-' then 1 else 0
    requires negative == (sl == 1 && s[w] == '-')
    requires w + sl <= |s| && Unsigned(s[w + sl..]) == Some(m)
    ensures var v := if negative then -(m as int) else m;
      ParseInt(s) == if IsInt32(v) then Some(v) else None
  {
    var signLen := if w < |s| && (s[w] == '+' || s[w] == '-') then 1 else 0;
    assert signLen == sl;
    var value: int := if negative then -(m as int) else m;
    assert ParseInt(s) == (if IsInt32(value) then Some(value) else None);
  }

  /** Digits followed by white space read as the value of the digits. */
  lemma {:induction false} UnsignedLayout(d: string, w: string)
    requires |d| > 0 && AllDigits(d) && AllNumberWhite(w)
    ensures Unsigned(d + w) == Some(DigitsValue(d))
  {
    LeadingDigitsStops(d, w);
    assert (d + w)[..|d|] == d && (d + w)[|d|..] == w;
  }

  lemma {:induction false} LeadingWhiteSkips(w: string, rest: string)
    requires AllNumberWhite(w)
    requires |rest| > 0 && !IsNumberWhite(rest[0])
    ensures LeadingWhite(w + rest) == |w|
    decreases |w|
  {
    if |w| == 0 {
      assert w + rest == rest;
    } else {
      assert (w + rest)[0] == w[0] && (w + rest)[1..] == w[1..] + rest;
      assert AllNumberWhite(w[1..]) by {
        forall i | 0 <= i < |w[1..]|
          ensures IsNumberWhite(w[1..][i])
        {
          assert w[1..][i] == w[i + 1];
        }
      }
      LeadingWhiteSkips(w[1..], rest);
    }
  }

  lemma {:induction false} LeadingDigitsStops(d: string, rest: string)
    requires AllDigits(d)
    requires |rest| == 0 || !IsDigit(rest[0])
    ensures LeadingDigits(d + rest) == |d|
    decreases |d|
  {
    if |d| == 0 {
      assert d + rest == rest;
    } else {
      assert (d + rest)[0] == d[0] && (d + rest)[1..] == d[1..] + rest;
      assert AllDigits(d[1..]) by {
        forall i | 0 <= i < |d[1..]|
          ensures IsDigit(d[1..][i])
        {
          assert d[1..][i] == d[i + 1];
        }
      }
      LeadingDigitsStops(d[1..], rest);
    }
  }

  /** A text starting with a digit has no leading white space. */
  lemma NoLeadingWhiteBeforeDigit(s: string)
    ensures |s| > 0 && IsDigit(s[0]) ==> LeadingWhite(s) == 0
  {
  }

  /** A run of digits is all leading digits. */
  lemma {:induction false} AllLeadingDigits(s: string)
    ensures AllDigits(s) ==> LeadingDigits(s) == |s|
  {
    if |s| > 0 && AllDigits(s) {
      assert AllDigits(s[1..]) by {
        forall i | 0 <= i < |s[1..]|
          ensures IsDigit(s[1..][i])
        {
          assert s[1..][i] == s[i + 1];
        }
      }
      AllLeadingDigits(s[1..]);
    }
  }

  /** Decimal digits of a natural number, without leading zeros. */
  function NatDigits(n: nat): (s: string)
    ensures |s| > 0 && AllDigits(s)
    ensures s[0] == '0' <==> n == 0
    ensures n == 0 ==> s == "0"
  {
    if n < 10 then [DigitChar(n)] else NatDigits(n / 10) + [DigitChar(n % 10)]
  }

  /** `Int32.ToString()`: decimal digits, a leading `-` for a negative value. */
  function Format(n: int): (r: string)
    ensures n >= 0 ==> |r| > 0 && AllDigits(r) && (r[0] == '0' <==> n == 0)
    ensures n == 0 ==> r == "0"
    ensures n < 0 ==> |r| >= 2 && r[0] == '-' && AllDigits(r[1..]) && r[1] != '0'
  {
    if n < 0 then "-" + NatDigits(-n) else NatDigits(n)
  }

  lemma {:induction false} NatDigitsValue(n: nat)
    ensures DigitsValue(NatDigits(n)) == n
  {
    if n >= 10 {
      NatDigitsValue(n / 10);
      var s := NatDigits(n);
      assert s[..|s| - 1] == NatDigits(n / 10);
    }
  }

  /** Parsing what `Format` writes gives the number back, for every 32-bit value. */
  lemma ParseFormat(n: int)
    requires IsInt32(n)
    ensures ParseInt(Format(n)) == Some(n)
  {
    var s := Format(n);
    var digits := NatDigits(if n < 0 then -n else n);
    NatDigitsValue(if n < 0 then -n else n);
    AllLeadingDigits(digits);
    assert !IsNumberWhite(s[0]);
    assert LeadingWhite(s) == 0;
    assert s[0..] == s;
    if n < 0 {
      assert s[1..] == digits;
    }
    assert digits[..|digits|] == digits;
    assert digits[|digits|..] == "";
  }

  /** Four ASCII digits parse to their positional value. */
  lemma ParseFourDigits(s: string)
    requires |s| == 4 && AllDigits(s)
    ensures ParseInt(s) == Some(1000 * DigitValue(s[0]) + 100 * DigitValue(s[1]) + 10 * DigitValue(s[2]) + DigitValue(s[3]))
  {
    AllLeadingDigits(s);
    assert s[0..] == s;
    assert s[..4] == s;
    assert s[4..] == "";
    assert s[..3][..2] == s[..2];
    assert s[..2][..1] == s[..1];
    assert DigitsValue(s[..1]) == DigitValue(s[0]);
    assert DigitsValue(s[..2]) == DigitValue(s[0]) * 10 + DigitValue(s[1]);
    assert DigitsValue(s[..3]) == (DigitValue(s[0]) * 10 + DigitValue(s[1])) * 10 + DigitValue(s[2]);
  }
}

=== FILE: migration.dfy ===
/**
 The identity of one migration: a number that orders it, a name, the script
 text (absent on records read back from the database) and a hash. Equality
 over (number, hash, name) is what decides whether a migration has already
 been applied.
 */
module Migrations {
  import opened Wrappers
  import Utils
  import Int32Text

  /** The number every object migration carries; it sorts after ordinary changesets. */
  const ObjectMigrationNum: int := 9999

  /** The fixed hash of a changeset: 32 zeros, never derived from the content. */
  const ChangesetHash: string := "00000000000000000000000000000000"

  /**
   A migration. `content` is `None` for a record rebuilt from the database (a C#
   null). `applyDate` counts `DateTime` ticks; it stays 0, the default `DateTime`,
   on declared migrations.
   */
  datatype Migration = Migration(num: int, name: string, content: Option<string>, hash: string, applyDate: int)

  /** `MakeChangeset`: an ordinary, numbered migration. */
  function MakeChangeset(num: int, name: string, content: string): (m: Migration)
    ensures m.num == num && m.name == name && m.content == Some(content)
    ensures |m.hash| == 32 && forall i :: 0 <= i < |m.hash| ==> m.hash[i] == '0'
  {
    Migration(num, name, Some(content), ChangesetHash, 0)
  }

  /** `MakeObjectMigration`: a repeatable object whose identity follows its content's digest. */
  function MakeObjectMigration(name: string, content: string, md5: string -> Utils.Digest): (m: Migration)
    ensures m.num == ObjectMigrationNum && m.name == name && m.content == Some(content)
    ensures |m.hash| == 32 && Utils.IsHexString(m.hash)
    ensures Utils.Unhex(m.hash) == md5(content)
  {
    Utils.UnhexHex(md5(content));
    Migration(ObjectMigrationNum, name, Some(content), Utils.Hex(md5(content)), 0)
  }

  /** `MakeAppliedMigration`: a record read back from the applied-migrations table. */
  function MakeAppliedMigration(num: int, name: string, hash: string, applyDate: int): (m: Migration)
    ensures m.num == num && m.name == name && m.hash == hash && m.applyDate == applyDate
    ensures m.content == None
  {
    Migration(num, name, None, hash, applyDate)
  }

  /** `ToString`: `#<num> <name>`, or `<name> (<hash>)` for the object-migration number. */
  function Display(m: Migration): string {
    if m.num != ObjectMigrationNum then "#" + Int32Text.Format(m.num) + " " + m.name
    else m.name + " (" + m.hash + ")"
  }

  /** `Equals`: the same number, hash and name; content and apply date do not take part. */
  predicate Same(a: Migration, b: Migration) {
    a.num == b.num && a.hash == b.hash && a.name == b.name
  }

  /** `Int32.GetHashCode`: the value's own 32 bits. */
  function Int32Hash(n: int): bv32 {
    (n % 0x1_0000_0000) as bv32
  }

  /** `GetHashCode`, over the framework's string hash `stringHash`. */
  function HashCode(m: Migration, stringHash: string -> bv32): bv32 {
    Int32Hash(m.num) ^ stringHash(m.hash) ^ stringHash(m.name)
  }

  /** `Same` is an equivalence relation. */
  lemma SameIsEquivalence(a: Migration, b: Migration, c: Migration)
    ensures Same(a, a)
    ensures Same(a, b) ==> Same(b, a)
    ensures Same(a, b) && Same(b, c) ==> Same(a, c)
  {
  }

  /** Two migrations that differ only in content and apply date are the same migration. */
  lemma SameIgnoresContentAndDate(m: Migration, content: Option<string>, applyDate: int)
    ensures Same(m, m.(content := content, applyDate := applyDate))
  {
  }

  /** Equal migrations have equal hash codes, whatever the string hash is. */
  lemma SameHashCode(a: Migration, b: Migration, stringHash: string -> bv32)
    requires Same(a, b)
    ensures HashCode(a, stringHash) == HashCode(b, stringHash)
  {
  }

  /**
   Two object migrations of one name are the same migration exactly when their
   contents have the same digest: a changed body is not "already applied".
   */
  lemma ObjectMigrationsSameIffDigest(name: string, c1: string, c2: string, md5: string -> Utils.Digest)
    ensures Same(MakeObjectMigration(name, c1, md5), MakeObjectMigration(name, c2, md5)) <==> md5(c1) == md5(c2)
  {
    var a := MakeObjectMigration(name, c1, md5);
    var b := MakeObjectMigration(name, c2, md5);
    if a.hash == b.hash {
      Utils.HexInjective(md5(c1), md5(c2));
    }
  }

  /** A changeset's identity is its number and name; editing its script changes nothing. */
  lemma ChangesetsSameIff(n1: int, name1: string, c1: string, n2: int, name2: string, c2: string)
    ensures Same(MakeChangeset(n1, name1, c1), MakeChangeset(n2, name2, c2)) <==> n1 == n2 && name1 == name2
  {
  }

  /** A record rebuilt from what was stored for `m` is the same migration as `m`. */
  lemma AppliedRecordSame(m: Migration, applyDate: int)
    ensures Same(MakeAppliedMigration(m.num, m.name, m.hash, applyDate), m)
  {
  }

  /**
   An ordinary migration renders as `#`, its number in decimal, a space and its
   name: the number can be read back from the text.
   */
  lemma DisplayNumbered(m: Migration)
    requires m.num != ObjectMigrationNum && Int32Text.IsInt32(m.num)
    ensures var r := Display(m);
      && |r| >= |m.name| + 3
      && r[0] == '#'
      && r[|r| - |m.name| - 1..] == " " + m.name
      && Int32Text.ParseInt(r[1..|r| - |m.name| - 1]) == Some(m.num)
      && (r[1] == '0' ==> m.num == 0)
      && (r[1] == '-' ==> |r| > 2 && r[2] != '0')
  {
    var r := Display(m);
    var digits := Int32Text.Format(m.num);
    assert r == "#" + digits + (" " + m.name);
    assert r[1..|r| - |m.name| - 1] == digits;
    Int32Text.ParseFormat(m.num);
  }

  /** An object migration renders as its name with its hash in parentheses. */
  lemma DisplayObject(m: Migration)
    requires m.num == ObjectMigrationNum
    ensures var r := Display(m);
      && r[..|m.name|] == m.name
      && r[|m.name|..] == " (" + m.hash + ")"
  {
  }

  /** A changeset numbered 9999 renders like an object migration, with the zero hash. */
  lemma ChangesetNumbered9999Display(name: string, content: string)
    ensures Display(MakeChangeset(ObjectMigrationNum, name, content)) == name + " (" + ChangesetHash + ")"
  {
  }
}

=== FILE: ordering.dfy ===
/**
 `toBeApplied.OrderBy(m => m.Num)`: a stable sort by number. Migrations with the
 same number keep their declaration order.
 */
module Ordering {
  import opened Migrations

  predicate SortedByNum(ms: seq<Migration>) {
    forall i, j :: 0 <= i < j < |ms| ==> ms[i].num <= ms[j].num
  }

  /** The migrations numbered `k`, in the order they appear. */
  function WithNum(ms: seq<Migration>, k: int): seq<Migration> {
    if |ms| == 0 then []
    else if ms[0].num == k then [ms[0]] + WithNum(ms[1..], k)
    else WithNum(ms[1..], k)
  }

  /** Puts `m` in front of the first migration numbered `m.num` or higher. */
  function InsertByNum(m: Migration, ms: seq<Migration>): (r: seq<Migration>)
    ensures |r| == |ms| + 1
    ensures multiset(r) == multiset(ms) + multiset{m}
  {
    if |ms| == 0 || m.num <= ms[0].num then [m] + ms
    else
      assert ms == [ms[0]] + ms[1..];
      [ms[0]] + InsertByNum(m, ms[1..])
  }

  lemma {:induction false} InsertByNumSorted(m: Migration, ms: seq<Migration>)
    requires SortedByNum(ms)
    ensures SortedByNum(InsertByNum(m, ms))
  {
    if |ms| > 0 && m.num > ms[0].num {
      InsertByNumSorted(m, ms[1..]);
      var rest := InsertByNum(m, ms[1..]);
      forall j | 0 <= j < |rest|
        ensures ms[0].num <= rest[j].num
      {
        assert rest[j] in multiset(rest);
        if rest[j] != m {
          assert rest[j] in multiset(ms[1..]);
          var i :| 0 <= i < |ms[1..]| && ms[1..][i] == rest[j];
          assert ms[i + 1] == rest[j];
        }
      }
    }
  }

  /** Insertion sort, taking the input from the front, so that ties keep their order. */
  function SortByNum(ms: seq<Migration>): (r: seq<Migration>)
    ensures SortedByNum(r)
    ensures multiset(r) == multiset(ms)
  {
    if |ms| == 0 then []
    else
      assert ms == [ms[0]] + ms[1..];
      InsertByNumSorted(ms[0], SortByNum(ms[1..]));
      InsertByNum(ms[0], SortByNum(ms[1..]))
  }

  lemma {:induction false} WithNumInsert(m: Migration, ms: seq<Migration>, k: int)
    ensures WithNum(InsertByNum(m, ms), k) == WithNum([m] + ms, k)
  {
    if |ms| == 0 || m.num <= ms[0].num {
    } else {
      WithNumInsert(m, ms[1..], k);
      var rest := InsertByNum(m, ms[1..]);
      assert ([ms[0]] + rest)[1..] == rest;
      assert ([m] + ms)[1..] == ms;
      assert ([m] + ms[1..])[1..] == ms[1..];
    }
  }

  /** Stability: the migrations of any one number come out in the order they went in. */
  lemma {:induction false} SortByNumStable(ms: seq<Migration>, k: int)
    ensures WithNum(SortByNum(ms), k) == WithNum(ms, k)
  {
    if |ms| > 0 {
      SortByNumStable(ms[1..], k);
      WithNumInsert(ms[0], SortByNum(ms[1..]), k);
      assert ([ms[0]] + SortByNum(ms[1..]))[1..] == SortByNum(ms[1..]);
    }
  }

  lemma {:induction false} WithNumBelowFirst(ms: seq<Migration>, k: int)
    requires SortedByNum(ms)
    requires |ms| > 0 && k < ms[0].num
    ensures WithNum(ms, k) == []
  {
    if |ms| > 1 {
      WithNumBelowFirst(ms[1..], k);
    }
  }

  lemma WithNumNonEmpty(ms: seq<Migration>)
    requires |ms| > 0
    ensures WithNum(ms, ms[0].num) == [ms[0]] + WithNum(ms[1..], ms[0].num)
  {
  }

  /**
   The order is determined: a sorted sequence with the same migrations of each
   number, in the same order, as another sorted sequence is that sequence.
   */
  lemma {:induction false} StableSortUnique(a: seq<Migration>, b: seq<Migration>)
    requires SortedByNum(a) && SortedByNum(b)
    requires forall k :: WithNum(a, k) == WithNum(b, k)
    ensures a == b
    decreases |a| + |b|
  {
    if |a| == 0 && |b| == 0 {
    } else if |a| == 0 {
      WithNumNonEmpty(b);
      assert false;
    } else if |b| == 0 {
      WithNumNonEmpty(a);
      assert false;
    } else {
      WithNumNonEmpty(a);
      WithNumNonEmpty(b);
      if a[0].num < b[0].num {
        WithNumBelowFirst(b, a[0].num);
        assert false;
      } else if b[0].num < a[0].num {
        WithNumBelowFirst(a, b[0].num);
        assert false;
      } else {
        var k0 := a[0].num;
        assert WithNum(a, k0) == WithNum(b, k0);
        assert a[0] == WithNum(a, k0)[0] && b[0] == WithNum(b, k0)[0];
        forall k
          ensures WithNum(a[1..], k) == WithNum(b[1..], k)
        {
          assert WithNum(a, k) == WithNum(b, k);
          if k == k0 {
            assert [a[0]] + WithNum(a[1..], k) == [b[0]] + WithNum(b[1..], k);
            assert WithNum(a[1..], k) == ([a[0]] + WithNum(a[1..], k))[1..];
          }
        }
        StableSortUnique(a[1..], b[1..]);
        assert a == [a[0]] + a[1..];
        assert b == [b[0]] + b[1..];
      }
    }
  }

  /**
   `SortByNum` is the stable sort: any sorted arrangement that keeps the order of
   equal numbers is exactly its result.
   */
  lemma StableSortIsSortByNum(ms: seq<Migration>, r: seq<Migration>)
    requires SortedByNum(r)
    requires forall k :: WithNum(r, k) == WithNum(ms, k)
    ensures r == SortByNum(ms)
  {
    forall k
      ensures WithNum(r, k) == WithNum(SortByNum(ms), k)
    {
      SortByNumStable(ms, k);
    }
    StableSortUnique(r, SortByNum(ms));
  }

  /** Object migrations, numbered 9999, run after every lower-numbered migration. */
  lemma ObjectMigrationsAfterLower(ms: seq<Migration>, i: int, j: int)
    requires 0 <= i < |SortByNum(ms)| && 0 <= j < |SortByNum(ms)|
    requires SortByNum(ms)[i].num == ObjectMigrationNum && SortByNum(ms)[j].num < ObjectMigrationNum
    ensures j < i
  {
  }
}

=== FILE: scripts.dfy ===
/**
 How `DbMigrator.applyMigration` turns a migration's script into statements and
 runs them: split on a `;` standing alone on its line, clean each piece with
 `cleanupScript`, skip blank pieces, refuse a function, trigger or procedure
 that is not closed by `;`, and execute the rest in order until one fails.
 */
module Scripts {
  import opened Wrappers
  import opened Strings

  /** The two separators handed to `String.Split`, tried in this order. */
  const Separator: string := "\n;\n"
  const SeparatorCrLf: string := "\n;\r\n"

  predicate SeparatorAt(s: string, i: int) {
    OccursAt(s, Separator, i) || OccursAt(s, SeparatorCrLf, i)
  }

  /** The length of the separator found at `i` (the two never both match). */
  function SeparatorLength(s: string, i: int): nat
    requires SeparatorAt(s, i)
  {
    if OccursAt(s, Separator, i) then |Separator| else |SeparatorCrLf|
  }

  predicate NoSeparator(p: string) {
    forall j :: 0 <= j < |p| ==> !SeparatorAt(p, j)
  }

  /** The first index at or after `from` where a separator starts, or `|s|`. */
  function FirstSeparator(s: string, from: nat): (i: nat)
    requires from <= |s|
    ensures from <= i <= |s|
    ensures i < |s| ==> SeparatorAt(s, i)
    ensures forall j :: from <= j < i ==> !SeparatorAt(s, j)
    decreases |s| - from
  {
    if from == |s| then |s|
    else if SeparatorAt(s, from) then from
    else FirstSeparator(s, from + 1)
  }

  lemma SeparatorInPrefix(s: string, i: nat, j: int)
    requires i <= |s|
    requires SeparatorAt(s[..i], j)
    ensures SeparatorAt(s, j)
  {
    if OccursAt(s[..i], Separator, j) {
      assert s[..i][j..j + |Separator|] == s[j..j + |Separator|];
    } else {
      assert s[..i][j..j + |SeparatorCrLf|] == s[j..j + |SeparatorCrLf|];
    }
  }

  /** `String.Split(separators, StringSplitOptions.None)`: every piece, empty ones included. */
  function SplitPieces(s: string): (ps: seq<string>)
    ensures |ps| >= 1
    ensures forall k :: 0 <= k < |ps| ==> NoSeparator(ps[k])
    decreases |s|
  {
    var i := FirstSeparator(s, 0);
    if i == |s| then [s]
    else
      assert NoSeparator(s[..i]) by {
        forall j | 0 <= j < i && SeparatorAt(s[..i], j)
          ensures false
        {
          SeparatorInPrefix(s, i, j);
        }
      }
      [s[..i]] + SplitPieces(s[i + SeparatorLength(s, i)..])
  }

  /** The non-empty pieces, in order. */
  function DropEmpty(ps: seq<string>): (r: seq<string>)
    ensures |r| <= |ps|
    ensures forall k :: 0 <= k < |r| ==> r[k] != ""
    ensures forall p :: p in r <==> p in ps && p != ""
  {
    if |ps| == 0 then []
    else if ps[0] == "" then DropEmpty(ps[1..])
    else [ps[0]] + DropEmpty(ps[1..])
  }

  /** Empty pieces are dropped one by one: the filter distributes over `+`, so order is kept. */
  lemma {:induction false} DropEmptyAppend(a: seq<string>, b: seq<string>)
    ensures DropEmpty(a + b) == DropEmpty(a) + DropEmpty(b)
  {
    if |a| == 0 {
      assert a + b == b;
    } else {
      assert (a + b)[1..] == a[1..] + b;
      DropEmptyAppend(a[1..], b);
    }
  }

  lemma DropEmptyOne(p: string)
    ensures DropEmpty([p]) == if p == "" then [] else [p]
  {
    assert [p][1..] == [];
  }

  /**
   `Content.Split(new[] { "\n;\n", "\n;\r\n" }, StringSplitOptions.RemoveEmptyEntries)`:
   the non-empty pieces between separators; none of them holds a separator.
   */
  function Split(content: string): (r: seq<string>)
    ensures forall k :: 0 <= k < |r| ==> r[k] != "" && NoSeparator(r[k])
    ensures content != "" && NoSeparator(content) ==> r == [content]
  {
    var ps := SplitPieces(content);
    assert forall p :: p in ps ==> NoSeparator(p) by {
      forall p | p in ps
        ensures NoSeparator(p)
      {
        var i :| 0 <= i < |ps| && ps[i] == p;
      }
    }
    DropEmpty(ps)
  }

  predicate IsSeparator(sep: string) {
    sep == Separator || sep == SeparatorCrLf
  }

  /** Pieces written one after another, with the separator `seps[k]` between pieces `k` and `k + 1`. */
  function JoinWith(ps: seq<string>, seps: seq<string>): string
    requires |ps| == |seps| + 1
  {
    if |seps| == 0 then ps[0] else ps[0] + seps[0] + JoinWith(ps[1..], seps[1..])
  }

  /** Statements with a line holding only `;` between each two; none follows the last. */
  function Join(ps: seq<string>): string
    requires |ps| >= 1
  {
    JoinWith(ps, seq(|ps| - 1, _ => Separator))
  }

  /** The separators `SplitPieces` cuts at, in order. */
  function SeparatorsOf(s: string): (seps: seq<string>)
    ensures |seps| + 1 == |SplitPieces(s)|
    ensures forall k :: 0 <= k < |seps| ==> IsSeparator(seps[k])
    decreases |s|
  {
    var i := FirstSeparator(s, 0);
    if i == |s| then []
    else
      var n := SeparatorLength(s, i);
      [s[i..i + n]] + SeparatorsOf(s[i + n..])
  }

  /** Splitting loses nothing: a script is its pieces with the separators found between them. */
  lemma {:induction false} JoinSplit(s: string)
    ensures JoinWith(SplitPieces(s), SeparatorsOf(s)) == s
    decreases |s|
  {
    var i := FirstSeparator(s, 0);
    if i < |s| {
      var n := SeparatorLength(s, i);
      var rest := s[i + n..];
      JoinSplit(rest);
      var ps := SplitPieces(s);
      var seps := SeparatorsOf(s);
      assert ps == [s[..i]] + SplitPieces(rest);
      assert ps[1..] == SplitPieces(rest);
      assert seps == [s[i..i + n]] + SeparatorsOf(rest);
      assert seps[1..] == SeparatorsOf(rest);
      JoinWithCons(ps, seps);
      ThreeParts(s, i, i + n);
    }
  }

  lemma JoinWithCons(ps: seq<string>, seps: seq<string>)
    requires |ps| == |seps| + 1 && |seps| > 0
    ensures JoinWith(ps, seps) == ps[0] + seps[0] + JoinWith(ps[1..], seps[1..])
  {
  }

  lemma ThreeParts(s: string, i: nat, j: nat)
    requires i <= j <= |s|
    ensures s == s[..i] + s[i..j] + s[j..]
  {
  }

  /** No line of `p` other than its first starts with `;`. */
  predicate NoSemicolonLine(p: string) {
    forall j :: 0 <= j < |p| - 1 ==> !(p[j] == '\n' && p[j + 1] == ';')
  }

  /** A separator starts with a line break followed by `;`. */
  lemma SeparatorStart(s: string, j: int)
    ensures SeparatorAt(s, j) ==> 0 <= j && j + 1 < |s| && s[j] == '\n' && s[j + 1] == ';'
  {
    if OccursAt(s, Separator, j) {
      assert s[j] == s[j..j + 3][0] && s[j + 1] == s[j..j + 3][1];
    } else if OccursAt(s, SeparatorCrLf, j) {
      assert s[j] == s[j..j + 4][0] && s[j + 1] == s[j..j + 4][1];
    }
  }

  lemma NoSeparatorBefore(p: string, rest: string)
    requires NoSemicolonLine(p)
    requires |rest| > 0 ==> rest[0] == '\n'
    ensures forall j :: 0 <= j < |p| ==> !SeparatorAt(p + rest, j)
  {
    var s := p + rest;
    forall j | 0 <= j < |p|
      ensures !SeparatorAt(s, j)
    {
      SeparatorStart(s, j);
      if j + 1 < |p| {
        assert s[j] == p[j] && s[j + 1] == p[j + 1];
      } else if |rest| > 0 {
        assert s[j + 1] == rest[0];
      }
    }
  }

  /** In `p`, then a separator, the first separator is that one. */
  lemma FirstSeparatorAfter(p: string, sep: string, rest: string)
    requires NoSemicolonLine(p) && IsSeparator(sep)
    ensures var s := p + (sep + rest);
      && FirstSeparator(s, 0) == |p|
      && SeparatorLength(s, |p|) == |sep|
      && s[..|p|] == p
      && s[|p| + |sep|..] == rest
  {
    var s := p + (sep + rest);
    NoSeparatorBefore(p, sep + rest);
    SeparatorAfter(p, sep, rest);
    var i := FirstSeparator(s, 0);
    assert i == |p| by {
      if i < |p| {
        assert SeparatorAt(s, i);
      }
    }
    assert s[|p|..] == sep + rest;
  }

  /** A separator placed after `p` is found there, with its own length. */
  lemma SeparatorAfter(p: string, sep: string, rest: string)
    requires IsSeparator(sep)
    ensures var s := p + (sep + rest); SeparatorAt(s, |p|) && SeparatorLength(s, |p|) == |sep|
  {
    var s := p + (sep + rest);
    assert s[|p|..|p| + |sep|] == sep;
    if sep == SeparatorCrLf {
      assert s[|p| + 2] == '\r';
      assert !OccursAt(s, Separator, |p|) by {
        if OccursAt(s, Separator, |p|) {
          assert s[|p| + 2] == s[|p|..|p| + 3][2];
        }
      }
    }
  }

  /** Pieces without a `;` line, joined by either separator, split back into exactly those pieces. */
  lemma {:induction false} SplitPiecesJoinWith(ps: seq<string>, seps: seq<string>)
    requires |ps| == |seps| + 1
    requires forall k :: 0 <= k < |ps| ==> NoSemicolonLine(ps[k])
    requires forall k :: 0 <= k < |seps| ==> IsSeparator(seps[k])
    ensures SplitPieces(JoinWith(ps, seps)) == ps
  {
    if |seps| == 0 {
      NoSeparatorBefore(ps[0], "");
      assert ps[0] + "" == ps[0];
      assert FirstSeparator(ps[0], 0) == |ps[0]|;
    } else {
      var rest := JoinWith(ps[1..], seps[1..]);
      JoinWithCons(ps, seps);
      assert JoinWith(ps, seps) == ps[0] + (seps[0] + rest);
      SplitPiecesCons(ps[0], seps[0], rest);
      assert forall k :: 0 <= k < |ps| - 1 ==> ps[1..][k] == ps[k + 1];
      assert forall k :: 0 <= k < |seps| - 1 ==> seps[1..][k] == seps[k + 1];
      SplitPiecesJoinWith(ps[1..], seps[1..]);
      assert ps == [ps[0]] + ps[1..];
    }
  }

  /** A piece without a `;` line, then a separator: the piece is split off first. */
  lemma SplitPiecesCons(p: string, sep: string, rest: string)
    requires NoSemicolonLine(p) && IsSeparator(sep)
    ensures SplitPieces(p + (sep + rest)) == [p] + SplitPieces(rest)
  {
    FirstSeparatorAfter(p, sep, rest);
  }

  lemma SplitPiecesJoin(ps: seq<string>)
    requires |ps| >= 1
    requires forall k :: 0 <= k < |ps| ==> NoSemicolonLine(ps[k])
    ensures SplitPieces(Join(ps)) == ps
  {
    SplitPiecesJoinWith(ps, seq(|ps| - 1, _ => Separator));
  }

  lemma {:induction false} DropEmptyNonEmpty(ps: seq<string>)
    requires forall k :: 0 <= k < |ps| ==> ps[k] != ""
    ensures DropEmpty(ps) == ps
  {
    if |ps| > 0 {
      DropEmptyNonEmpty(ps[1..]);
      assert ps == [ps[0]] + ps[1..];
    }
  }

  /** Splitting statements that were joined with separator lines gives them back. */
  lemma SplitJoin(ps: seq<string>)
    requires |ps| >= 1
    requires forall k :: 0 <= k < |ps| ==> ps[k] != "" && NoSemicolonLine(ps[k])
    ensures Split(Join(ps)) == ps
  {
    SplitPiecesJoin(ps);
    DropEmptyNonEmpty(ps);
  }

  /** With empty pieces and either separator, splitting gives the non-empty pieces, in order. */
  lemma SplitJoinWith(ps: seq<string>, seps: seq<string>)
    requires |ps| == |seps| + 1
    requires forall k :: 0 <= k < |ps| ==> NoSemicolonLine(ps[k])
    requires forall k :: 0 <= k < |seps| ==> IsSeparator(seps[k])
    ensures Split(JoinWith(ps, seps)) == DropEmpty(ps)
  {
    SplitPiecesJoinWith(ps, seps);
  }

  /** A line the pattern `^-- .*$` matches. */
  predicate IsCommentLine(line: string) {
    |line| >= 3 && line[..3] == "-- "
  }

  function BlankCommentLine(line: string): string {
    if IsCommentLine(line) then "" else line
  }

  function BlankComments(ls: seq<string>): (r: seq<string>)
    ensures |r| == |ls|
    ensures forall k :: 0 <= k < |ls| ==> r[k] == BlankCommentLine(ls[k])
  {
    if |ls| == 0 then [] else [BlankCommentLine(ls[0])] + BlankComments(ls[1..])
  }

  /**
   `REMOVE_COMMENTS_AT_LINE_START.Replace(script, "")`: every line starting with
   `-- ` becomes empty and keeps its line break; the other lines are untouched.
   */
  function StripComments(s: string): (r: string)
    ensures |Lines(r)| == |Lines(s)|
    ensures forall k :: 0 <= k < |Lines(s)| ==>
      Lines(r)[k] == if IsCommentLine(Lines(s)[k]) then "" else Lines(s)[k]
  {
    var ls := BlankComments(Lines(s));
    LinesUnlines(ls);
    Unlines(ls)
  }

  /**
   `cleanupScript`: strip comment lines, then replace `"\n/\n"` and then
   `"\n/\r\n"` by `"\n"`, then remove every `'\r'`.
   */
  function Cleanup(script: string): (r: string)
    ensures '\r' !in r
  {
    var noComments := StripComments(script);
    var noSlashes := Replace(Replace(noComments, "\n/\n", "\n"), "\n/\r\n", "\n");
    ReplaceCharByNothing(noSlashes, '\r');
    Replace(noSlashes, "\r", "")
  }

  /** Text the clean-up has nothing to do to. */
  predicate IsClean(s: string) {
    && '\r' !in s
    && !Contains(s, "\n/\n")
    && !Contains(s, "\n/\r\n")
    && forall k :: 0 <= k < |Lines(s)| ==> !IsCommentLine(Lines(s)[k])
  }

  lemma RemoveAbsent(s: string, c: char)
    requires c !in s
    ensures Remove(s, c) == s
  {
    if |s| > 0 {
      RemoveAbsent(s[1..], c);
    }
  }

  /** Clean-up leaves clean text unchanged. */
  lemma CleanupClean(s: string)
    requires IsClean(s)
    ensures Cleanup(s) == s
  {
    assert BlankComments(Lines(s)) == Lines(s);
    UnlinesLines(s);
    assert StripComments(s) == s;
    ReplaceAbsent(s, "\n/\n", "\n");
    ReplaceAbsent(s, "\n/\r\n", "\n");
    ReplaceCharByNothing(s, '\r');
    RemoveAbsent(s, '\r');
  }

  /** A text without `-` has no comment line, so comment stripping leaves it alone. */
  lemma {:induction false} StripCommentsNoDash(s: string)
    requires '-' !in s
    ensures StripComments(s) == s
  {
    NoDashNoCommentLine(s);
    assert BlankComments(Lines(s)) == Lines(s);
    UnlinesLines(s);
  }

  lemma {:induction false} NoDashNoCommentLine(s: string)
    requires '-' !in s
    ensures forall k :: 0 <= k < |Lines(s)| ==> !IsCommentLine(Lines(s)[k])
    decreases |s|
  {
    var i := FirstIndexOf(s, '\n');
    if i < |s| {
      NoDashNoCommentLine(s[i + 1..]);
      assert |s[..i]| >= 3 ==> s[..i][0] == s[0];
    } else {
      assert |s| >= 3 ==> s[..3][0] == s[0];
    }
  }

  /** Removing `'\r'` from text without one changes nothing. */
  lemma RemoveCrAbsent(s: string)
    requires '\r' !in s
    ensures Replace(s, "\r", "") == s
  {
    ReplaceCharByNothing(s, '\r');
    RemoveAbsent(s, '\r');
  }

  /** Only the first of two `/` lines in a row is replaced: the scan resumes after it. */
  lemma FirstSlashLineReplaced()
    ensures Replace("\n/\n/\n", "\n/\n", "\n") == "\n/\n"
  {
    ReplaceLeftmost("", "\n/\n", "\n", "/\n");
    assert "" + "\n/\n" + "/\n" == "\n/\n/\n";
  }

  lemma SlashLineReplaced()
    ensures Replace("\n/\n", "\n/\n", "\n") == "\n"
  {
    ReplaceLeftmost("", "\n/\n", "\n", "");
    assert "" + "\n/\n" + "" == "\n/\n";
  }

  lemma StripSlashLines()
    ensures StripComments("\n/\n/\n") == "\n/\n/\n"
    ensures StripComments("\n/\n") == "\n/\n"
  {
    StripCommentsNoDash("\n/\n/\n");
    StripCommentsNoDash("\n/\n");
  }

  lemma CleanupTwoSlashLines()
    ensures Cleanup("\n/\n/\n") == "\n/\n"
  {
    FirstSlashLineReplaced();
    StripSlashLines();
    assert Replace("\n/\n", "\n/\r\n", "\n") == "\n/\n";
    RemoveCrAbsent("\n/\n");
  }

  lemma CleanupOneSlashLine()
    ensures Cleanup("\n/\n") == "\n"
  {
    SlashLineReplaced();
    StripSlashLines();
    assert Replace("\n", "\n/\r\n", "\n") == "\n";
    RemoveCrAbsent("\n");
  }

  /**
   Replacement does not rescan its output: of two `/` lines in a row only the
   first is dropped, so cleaning the cleaned text changes it again.
   */
  lemma CleanupNotIdempotent()
    ensures var once := Cleanup("\n/\n/\n");
      once == "\n/\n" && Cleanup(once) == "\n" && Cleanup(once) != once
  {
    CleanupTwoSlashLines();
    CleanupOneSlashLine();
  }

  /** The lower-cased statement declares a function, a trigger or a procedure: its body must be closed by `;`. */
  predicate DeclaresProcedure(s: string) {
    var lower := ToLower(s);
    || Contains(lower, "create or replace function")
    || Contains(lower, "create or replace trigger")
    || Contains(lower, "create or replace procedure")
  }

  /** The declaration test ignores letter case: it reads the same on the lower-cased text. */
  lemma DeclaresProcedureIgnoresCase(s: string)
    ensures DeclaresProcedure(ToLower(s)) <==> DeclaresProcedure(s)
  {
    ToLowerIdempotent(s);
  }

  /** The last `;` of the right-trimmed text lies within its final five characters (`-1` if none). */
  predicate ClosedBySemicolon(s: string) {
    var t := TrimEnd(s);
    LastIndexOf(t, ';') >= |t| - 5
  }

  /** The closing test, spelled out: five characters or fewer, or a `;` among the last five. */
  lemma ClosedBySemicolonIff(s: string)
    ensures var t := TrimEnd(s);
      ClosedBySemicolon(s) <==> |t| <= 4 || exists j :: |t| - 5 <= j < |t| && 0 <= j && t[j] == ';'
  {
    var t := TrimEnd(s);
    var last := LastIndexOf(t, ';');
    if exists j :: |t| - 5 <= j < |t| && 0 <= j && t[j] == ';' {
      var j :| |t| - 5 <= j < |t| && 0 <= j && t[j] == ';';
      assert last >= j;
    }
  }

  /** A statement with no `;` at all is refused as soon as its trimmed text exceeds four characters. */
  lemma NoSemicolonRefused(s: string)
    requires ';' !in TrimEnd(s)
    ensures ClosedBySemicolon(s) <==> |TrimEnd(s)| <= 4
  {
    ClosedBySemicolonIff(s);
  }

  /** A statement passes validation unless it is a procedural body left unclosed. */
  predicate Accepted(s: string) {
    DeclaresProcedure(s) ==> ClosedBySemicolon(s)
  }

  /**
   The statement `create or replace procedure p is begin null; end` is accepted:
   its last `;` is exactly the fifth character from the end.
   */
  lemma ProcedureEndingInEndAccepted()
    ensures Accepted("create or replace procedure p is begin null; end")
  {
    var s := "create or replace procedure p is begin null; end";
    assert TrimEnd(s) == s;
    assert s[|s| - 5] == ';';
    ClosedBySemicolonIff(s);
  }

  lemma ToLowerAppend(a: string, b: string)
    ensures ToLower(a + b) == ToLower(a) + ToLower(b)
  {
  }

  lemma ProcedureKeywordLower()
    ensures ToLower("create or replace procedure") == "create or replace procedure"
  {
  }

  lemma UnclosedBodyLower()
    ensures ToLower(" p is begin null end") == " p is begin null end"
  {
  }

  lemma UnclosedBodyTrimmed()
    ensures TrimEnd("create or replace procedure p is begin null end") == "create or replace procedure p is begin null end"
  {
  }

  lemma UnclosedBodyDeclares()
    ensures DeclaresProcedure("create or replace procedure p is begin null end")
  {
    var decl := "create or replace procedure";
    var tail := " p is begin null end";
    var s := decl + tail;
    assert s == "create or replace procedure p is begin null end";
    ToLowerAppend(decl, tail);
    ProcedureKeywordLower();
    UnclosedBodyLower();
    assert ToLower(s) == decl + tail;
    assert (decl + tail)[..|decl|] == decl;
    assert OccursAt(ToLower(s), decl, 0);
  }

  lemma UnclosedBodyNotClosed()
    ensures !ClosedBySemicolon("create or replace procedure p is begin null end")
  {
    var s := "create or replace procedure p is begin null end";
    UnclosedBodyTrimmed();
    var last := s[|s| - 5..];
    assert last == "l end";
    assert forall j :: |s| - 5 <= j < |s| ==> s[j] == last[j - (|s| - 5)];
    ClosedBySemicolonIff(s);
  }

  /** The same body without `;` is refused. */
  lemma UnclosedProcedureRefused()
    ensures !Accepted("create or replace procedure p is begin null end")
  {
    UnclosedBodyDeclares();
    UnclosedBodyNotClosed();
  }

  /** The cleaned, non-blank pieces, in textual order. */
  function Prepare(pieces: seq<string>): (r: seq<string>)
    ensures |r| <= |pieces|
    ensures forall k :: 0 <= k < |r| ==> !IsBlank(r[k]) && '\r' !in r[k]
  {
    if |pieces| == 0 then []
    else
      var c := Cleanup(pieces[0]);
      var rest := Prepare(pieces[1..]);
      if IsBlank(c) then rest else [c] + rest
  }

  /** A statement is kept exactly when it is the non-blank cleanup of some piece. */
  lemma PrepareMembers(pieces: seq<string>)
    ensures forall x :: x in Prepare(pieces) <==> !IsBlank(x) && exists k :: 0 <= k < |pieces| && Cleanup(pieces[k]) == x
  {
    forall x | x in Prepare(pieces)
      ensures !IsBlank(x) && exists k :: 0 <= k < |pieces| && Cleanup(pieces[k]) == x
    {
      PrepareOnlyCleanups(pieces, x);
    }
    forall k | 0 <= k < |pieces| && !IsBlank(Cleanup(pieces[k]))
      ensures Cleanup(pieces[k]) in Prepare(pieces)
    {
      PrepareKeeps(pieces, k);
    }
  }

  lemma {:induction false} PrepareOnlyCleanups(pieces: seq<string>, x: string)
    requires x in Prepare(pieces)
    ensures !IsBlank(x) && exists k :: 0 <= k < |pieces| && Cleanup(pieces[k]) == x
  {
    var tail := pieces[1..];
    var c := Cleanup(pieces[0]);
    assert Prepare(pieces) == (if IsBlank(c) then [] else [c]) + Prepare(tail);
    if x in Prepare(tail) {
      PrepareOnlyCleanups(tail, x);
      var k :| 0 <= k < |tail| && Cleanup(tail[k]) == x;
      assert tail[k] == pieces[k + 1];
    } else {
      assert Cleanup(pieces[0]) == x;
    }
  }

  lemma {:induction false} PrepareKeeps(pieces: seq<string>, k: nat)
    requires k < |pieces| && !IsBlank(Cleanup(pieces[k]))
    ensures Cleanup(pieces[k]) in Prepare(pieces)
  {
    var tail := pieces[1..];
    var c := Cleanup(pieces[0]);
    assert Prepare(pieces) == (if IsBlank(c) then [] else [c]) + Prepare(tail);
    if k > 0 {
      assert tail[k - 1] == pieces[k];
      PrepareKeeps(tail, k - 1);
    }
  }

  /** Pieces are cleaned and skipped one by one: `Prepare` distributes over `+`, so order is kept. */
  lemma {:induction false} PrepareAppend(a: seq<string>, b: seq<string>)
    ensures Prepare(a + b) == Prepare(a) + Prepare(b)
  {
    if |a| == 0 {
      assert a + b == b;
    } else {
      assert (a + b)[1..] == a[1..] + b;
      PrepareAppend(a[1..], b);
    }
  }

  lemma PrepareOne(p: string)
    ensures Prepare([p]) == if IsBlank(Cleanup(p)) then [] else [Cleanup(p)]
  {
    assert [p][1..] == [];
  }

  /** The statements `applyMigration` sends to the database for a script, in order. */
  function Statements(content: string): (r: seq<string>)
    ensures forall k :: 0 <= k < |r| ==> !IsBlank(r[k]) && '\r' !in r[k]
  {
    Prepare(Split(content))
  }

  /** A script that is one clean, non-blank statement without a separator is sent as it is. */
  lemma StatementsOfClean(content: string)
    requires NoSeparator(content) && IsClean(content) && !IsBlank(content)
    ensures Statements(content) == [content]
  {
    CleanupClean(content);
    PrepareOne(content);
  }

  lemma {:induction false} PrepareClean(ps: seq<string>)
    requires forall k :: 0 <= k < |ps| ==> IsClean(ps[k]) && !IsBlank(ps[k])
    ensures Prepare(ps) == ps
  {
    if |ps| > 0 {
      CleanupClean(ps[0]);
      assert forall k :: 0 <= k < |ps[1..]| ==> ps[1..][k] == ps[k + 1];
      PrepareClean(ps[1..]);
      assert Prepare(ps) == [ps[0]] + Prepare(ps[1..]);
      assert [ps[0]] + ps[1..] == ps;
    }
  }

  /**
   Clean, non-blank statements joined by separator lines come back as exactly
   those statements, in the same order: nothing is reordered, merged or lost.
   */
  lemma StatementsOfJoin(ps: seq<string>)
    requires |ps| >= 1
    requires forall k :: 0 <= k < |ps| ==> IsClean(ps[k]) && !IsBlank(ps[k]) && NoSemicolonLine(ps[k])
    ensures Statements(Join(ps)) == ps
  {
    SplitJoin(ps);
    PrepareClean(ps);
  }

  /**
   Any script: pieces without a `;` line, joined by either separator, empty pieces
   and a trailing separator allowed. Its statements are the cleaned pieces that
   are not blank, in textual order.
   */
  lemma StatementsOfScript(ps: seq<string>, seps: seq<string>)
    requires |ps| == |seps| + 1
    requires forall k :: 0 <= k < |ps| ==> NoSemicolonLine(ps[k])
    requires forall k :: 0 <= k < |seps| ==> IsSeparator(seps[k])
    ensures Statements(JoinWith(ps, seps)) == Prepare(DropEmpty(ps))
  {
    SplitJoinWith(ps, seps);
  }

  lemma {:induction false} JoinWithTrailing(ps: seq<string>, seps: seq<string>, sep: string)
    requires |ps| == |seps| + 1
    ensures JoinWith(ps + [""], seps + [sep]) == JoinWith(ps, seps) + sep
  {
    if |seps| == 0 {
      assert (ps + [""])[1..] == [""];
      assert [sep][1..] == [];
    } else {
      assert (ps + [""])[1..] == ps[1..] + [""];
      assert (seps + [sep])[1..] == seps[1..] + [sep];
      JoinWithTrailing(ps[1..], seps[1..], sep);
    }
  }

  /**
   Clean statements joined by either separator, with a separator after the last
   one too, come back as exactly those statements.
   */
  lemma StatementsWithTrailingSeparator(ps: seq<string>, seps: seq<string>, sep: string)
    requires |ps| == |seps| + 1
    requires forall k :: 0 <= k < |ps| ==> IsClean(ps[k]) && !IsBlank(ps[k]) && NoSemicolonLine(ps[k])
    requires forall k :: 0 <= k < |seps| ==> IsSeparator(seps[k])
    requires IsSeparator(sep)
    ensures Statements(JoinWith(ps, seps) + sep) == ps
  {
    SplitWithTrailingSeparator(ps, seps, sep);
    PrepareClean(ps);
  }

  lemma SplitWithTrailingSeparator(ps: seq<string>, seps: seq<string>, sep: string)
    requires |ps| == |seps| + 1
    requires forall k :: 0 <= k < |ps| ==> ps[k] != "" && NoSemicolonLine(ps[k])
    requires forall k :: 0 <= k < |seps| ==> IsSeparator(seps[k])
    requires IsSeparator(sep)
    ensures Split(JoinWith(ps, seps) + sep) == ps
  {
    JoinWithTrailing(ps, seps, sep);
    var qs := ps + [""];
    assert forall k :: 0 <= k < |qs| ==> NoSemicolonLine(qs[k]);
    SplitJoinWith(qs, seps + [sep]);
    DropEmptyAppend(ps, [""]);
    DropEmptyOne("");
    DropEmptyNonEmpty(ps);
  }

  /** A carriage return left at the end of a piece by a `"\n;\r\n"` separator is removed. */
  lemma CleanupCrPiece()
    ensures Cleanup("a\r") == "a"
  {
    StripCommentsNoDash("a\r");
    ReplaceAbsent("a\r", "\n/\n", "\n");
    ReplaceAbsent("a\r", "\n/\r\n", "\n");
    ReplaceCharByNothing("a\r", '\r');
    assert Remove("a\r", '\r') == "a";
  }

  /** A script using the Windows separator `"\n;\r\n"` gives its statements without carriage returns. */
  lemma CrLfScript()
    ensures Statements("a\r\n;\r\nb") == ["a", "b"]
  {
    var ps := ["a\r", "b"];
    var script := JoinWith(ps, [SeparatorCrLf]);
    JoinWithCons(ps, [SeparatorCrLf]);
    assert ps[1..] == ["b"] && [SeparatorCrLf][1..] == [];
    assert script == "a\r" + SeparatorCrLf + "b";
    assert script == "a\r\n;\r\nb";
    StatementsOfScript(ps, [SeparatorCrLf]);
    DropEmptyNonEmpty(ps);
    assert Statements(script) == Prepare(ps);
    PrepareTwo("a\r", "b");
    PrepareCrLfPieces();
  }

  lemma PrepareTwo(a: string, b: string)
    ensures Prepare([a, b]) == Prepare([a]) + Prepare([b])
  {
    PrepareAppend([a], [b]);
    assert [a] + [b] == [a, b];
  }

  lemma PrepareCrLfPieces()
    ensures Prepare(["a\r"]) + Prepare(["b"]) == ["a", "b"]
  {
    PrepareCrPiece();
    PreparePlainPiece();
  }

  lemma PrepareCrPiece()
    ensures Prepare(["a\r"]) == ["a"]
  {
    PrepareOne("a\r");
    CleanupCrPiece();
    assert !IsBlank("a") by { assert !IsWhiteSpace("a"[0]); }
  }

  lemma PreparePlainPiece()
    ensures Prepare(["b"]) == ["b"]
  {
    PrepareOne("b");
    CleanupClean("b");
    assert !IsBlank("b") by { assert !IsWhiteSpace("b"[0]); }
  }

  /** Why execution of a script stopped. */
  datatype Stop =
    | Unterminated  // a function, trigger or procedure not closed by `;`; never sent
    | Rejected      // the database failed the statement

  datatype StopAt = StopAt(index: nat, reason: Stop)

  /** What running a script did: the statements sent, in order, and where it stopped. */
  datatype ScriptRun = ScriptRun(sent: seq<string>, stopped: Option<StopAt>)

  /** A statement gets through: it passes validation and the database accepts it. */
  predicate Runs(s: string, fails: string -> bool) {
    Accepted(s) && !fails(s)
  }

  /**
   The statement loop of `applyMigration`. Statements are validated and sent one
   at a time; the first refused or failing statement ends the run.
   */
  function Run(stmts: seq<string>, fails: string -> bool): (r: ScriptRun)
    ensures r.stopped.None? <==> forall i :: 0 <= i < |stmts| ==> Runs(stmts[i], fails)
    ensures r.stopped.None? ==> r.sent == stmts
    ensures r.stopped.Some? ==>
      var k := r.stopped.value.index;
      && k < |stmts|
      && (forall i :: 0 <= i < k ==> Runs(stmts[i], fails))
      && (r.stopped.value.reason == Unterminated <==> !Accepted(stmts[k]))
      && (r.stopped.value.reason == Rejected ==> fails(stmts[k]))
      && r.sent == stmts[..if r.stopped.value.reason == Unterminated then k else k + 1]
  {
    if |stmts| == 0 then ScriptRun([], None)
    else if !Accepted(stmts[0]) then ScriptRun([], Some(StopAt(0, Unterminated)))
    else if fails(stmts[0]) then ScriptRun([stmts[0]], Some(StopAt(0, Rejected)))
    else
      var rest := Run(stmts[1..], fails);
      if rest.stopped.None? then
        assert stmts == [stmts[0]] + stmts[1..];
        ScriptRun([stmts[0]] + rest.sent, None)
      else
        var at := rest.stopped.value;
        TakeCons(stmts, at.index);
        TakeCons(stmts, at.index + 1);
        ScriptRun([stmts[0]] + rest.sent, Some(StopAt(at.index + 1, at.reason)))
  }

  lemma TakeCons(stmts: seq<string>, j: nat)
    requires 0 < |stmts| && j < |stmts|
    ensures stmts[..j + 1] == [stmts[0]] + stmts[1..][..j]
  {
  }
}

=== FILE: sources.dfy ===
/**
 Where the declared migrations come from (`Sources.cs`): changeset files named
 `NNNN_name.sql`, object files whose name is the migration's name, and the
 database name inside a connection string. Directory listing, file reading and
 zip extraction are outside the model: the files arrive as (name, content)
 pairs, and the version-control client is the set of files it lists.
 */
module Sources {
  import opened Wrappers
  import opened Strings
  import Int32Text
  import Utils
  import opened Migrations

  /** The file-name pattern the error message asks for. */
  const ExpectedPattern: string := "0000_text_text_text.sql"

  /** One script file: its name (without directories) and its text. */
  datatype SourceFile = SourceFile(fileName: string, content: string)

  /** Why a file name was refused: too short for `Substring`, or a prefix `int.Parse` rejects. */
  datatype NameCause = TooShort | NotANumber

  datatype SourceError =
    | InvalidName(given: string, cause: NameCause)  // the `ArgumentException` naming the file
    | NotUnderVersionControl                         // an objects folder outside version control
    | NotTracked(path: string)                       // an object file the revision map does not list

  /**
   The message of `InvalidName`, around the framework's own message `inner`
   for the underlying exception.
   */
  function Message(e: SourceError, inner: string): (msg: string)
    requires e.InvalidName?
    ensures OccursAt(msg, e.given, 36)
    ensures Contains(msg, ExpectedPattern)
  {
    var msg := "Filename has invalid format. Given: " + e.given + " Expected: '" + ExpectedPattern + "'. Inner message: " + inner;
    assert OccursAt(msg, ExpectedPattern, 36 + |e.given| + 12);
    msg
  }

  /** `Path.GetFileNameWithoutExtension` on a bare file name: the text before the last `.`. */
  function WithoutExtension(fileName: string): (stem: string)
    ensures stem <= fileName
    ensures '.' !in fileName ==> stem == fileName
    ensures '.' in fileName ==> |stem| < |fileName| && fileName[|stem|] == '.' && '.' !in fileName[|stem| + 1..]
  {
    var i := LastIndexOf(fileName, '.');
    if '.' in fileName then
      var j :| 0 <= j < |fileName| && fileName[j] == '.';
      assert i >= j;
      fileName[..i]
    else fileName
  }

  /** `int.Parse(name.Substring(0, 4))`, or the error the two calls throw. */
  function NumberPrefix(given: string, name: string): (r: Result<int, SourceError>)
    ensures r.Success? <==> |name| >= 4 && Int32Text.ParseInt(name[..4]).Some?
    ensures r.Success? ==> Some(r.value) == Int32Text.ParseInt(name[..4])
    ensures r.Failure? ==> r.error.InvalidName? && r.error.given == given
  {
    if |name| < 4 then Failure(InvalidName(given, TooShort))
    else match Int32Text.ParseInt(name[..4])
      case None => Failure(InvalidName(given, NotANumber))
      case Some(n) => Success(n)
  }

  /**
   A changeset in the changesets folder: the number is the first four characters
   of the name without extension, the name is everything from index 5. The
   character at index 4 is not looked at, and dots inside the name stay.
   */
  function ParseChangesetName(fileName: string): (r: Result<(int, string), SourceError>)
    ensures var stem := WithoutExtension(fileName);
      && (r.Success? <==> |stem| >= 5 && Int32Text.ParseInt(stem[..4]).Some?)
      && (r.Success? ==> Some(r.value.0) == Int32Text.ParseInt(stem[..4]) && stem == stem[..5] + r.value.1)
      && (r.Failure? ==> r.error == InvalidName(stem, if |stem| >= 4 && Int32Text.ParseInt(stem[..4]).None? then NotANumber else TooShort))
  {
    var stem := WithoutExtension(fileName);
    var num :- NumberPrefix(stem, stem);
    if |stem| < 5 then Failure(InvalidName(stem, TooShort)) else Success((num, stem[5..]))
  }

  /**
   A changeset in the archive: the number as for a folder; the name runs from
   index 5 up to the first `.`, so it never holds a dot.
   */
  function ParseArchiveName(fileName: string): (r: Result<(int, string), SourceError>)
    ensures (r.Success? <==> |fileName| >= 5 && Int32Text.ParseInt(fileName[..4]).Some?)
    ensures r.Success? ==>
      && Some(r.value.0) == Int32Text.ParseInt(fileName[..4])
      && '.' !in r.value.1
      && r.value.1 <= fileName[5..]
      && (5 + |r.value.1| < |fileName| ==> fileName[5 + |r.value.1|] == '.')
    ensures r.Failure? ==> r.error == InvalidName(fileName, if |fileName| >= 4 && Int32Text.ParseInt(fileName[..4]).None? then NotANumber else TooShort)
  {
    var num :- NumberPrefix(fileName, fileName);
    if |fileName| < 5 then Failure(InvalidName(fileName, TooShort))
    else
      var rest := fileName[5..];
      var name := rest[..FirstIndexOf(rest, '.')];
      assert rest == name + rest[|name|..];
      Success((num, name))
  }

  /**
   Each file becomes a changeset numbered and named by `parse`; the first name
   `parse` refuses ends the read. Folder and archive differ only in `parse`.
   */
  function ReadChangesetFiles(files: seq<SourceFile>, parse: string -> Result<(int, string), SourceError>): (r: Result<seq<Migration>, SourceError>)
    ensures r.Success? <==> forall i :: 0 <= i < |files| ==> parse(files[i].fileName).Success?
    ensures r.Success? ==> |r.value| == |files| && forall i :: 0 <= i < |files| ==>
      r.value[i] == MakeChangeset(parse(files[i].fileName).value.0, parse(files[i].fileName).value.1, files[i].content)
    ensures r.Failure? ==> exists k ::
      && 0 <= k < |files|
      && parse(files[k].fileName) == Failure(r.error)
      && forall i :: 0 <= i < k ==> parse(files[i].fileName).Success?
  {
    if |files| == 0 then Success([])
    else
      var first := parse(files[0].fileName);
      if first.Failure? then Failure(first.error)
      else
        var rest := ReadChangesetFiles(files[1..], parse);
        if rest.Failure? then
          ErrorInTail(files, parse, rest.error);
          Failure(rest.error)
        else
          var ms := [MakeChangeset(first.value.0, first.value.1, files[0].content)] + rest.value;
          assert forall i :: 1 <= i < |files| ==> files[i] == files[1..][i - 1] && ms[i] == rest.value[i - 1];
          Success(ms)
  }

  /** When the first file parses, the first failure among the later files is the first failure of all. */
  lemma ErrorInTail(files: seq<SourceFile>, parse: string -> Result<(int, string), SourceError>, e: SourceError)
    requires |files| > 0 && parse(files[0].fileName).Success?
    requires exists k ::
      && 0 <= k < |files[1..]|
      && parse(files[1..][k].fileName) == Failure(e)
      && forall i :: 0 <= i < k ==> parse(files[1..][i].fileName).Success?
    ensures exists k ::
      && 0 <= k < |files|
      && parse(files[k].fileName) == Failure(e)
      && forall i :: 0 <= i < k ==> parse(files[i].fileName).Success?
  {
    var k :| 0 <= k < |files[1..]| && parse(files[1..][k].fileName) == Failure(e)
      && forall i :: 0 <= i < k ==> parse(files[1..][i].fileName).Success?;
    assert files[k + 1] == files[1..][k];
    forall i | 0 <= i < k + 1
      ensures parse(files[i].fileName).Success?
    {
      if i > 0 {
        assert files[i] == files[1..][i - 1];
      }
    }
  }

  /** `readChangesetsFromFolder`: each file becomes a changeset; the first bad name ends the read. */
  function ReadChangesets(files: seq<SourceFile>): (r: Result<seq<Migration>, SourceError>)
    ensures r.Success? <==> forall i :: 0 <= i < |files| ==> ParseChangesetName(files[i].fileName).Success?
    ensures r.Success? ==> |r.value| == |files| && forall i :: 0 <= i < |files| ==>
      var parsed := ParseChangesetName(files[i].fileName).value;
      r.value[i] == MakeChangeset(parsed.0, parsed.1, files[i].content)
    ensures r.Failure? ==> exists k ::
      && 0 <= k < |files|
      && ParseChangesetName(files[k].fileName) == Failure(r.error)
      && forall i :: 0 <= i < k ==> ParseChangesetName(files[i].fileName).Success?
  {
    ReadChangesetFiles(files, ParseChangesetName)
  }

  /** How many files, from the front, the revision map lists. */
  function FirstUntracked(files: seq<SourceFile>, tracked: set<string>): (k: nat)
    ensures k <= |files|
    ensures forall i :: 0 <= i < k ==> files[i].fileName in tracked
    ensures k < |files| ==> files[k].fileName !in tracked
  {
    if |files| == 0 || files[0].fileName !in tracked then 0 else 1 + FirstUntracked(files[1..], tracked)
  }

  /**
   `readObjectsFromFolder`. `vcs` is the version-control client: `None` when the
   folder is not under version control, otherwise the files its revision map
   lists. Every file becomes an object migration named after the file; the
   first file the map does not list ends the read.
   */
  function ReadObjects(files: seq<SourceFile>, vcs: Option<set<string>>, md5: string -> Utils.Digest): (r: Result<seq<Migration>, SourceError>)
    ensures r.Success? <==> vcs.Some? && forall i :: 0 <= i < |files| ==> files[i].fileName in vcs.value
    ensures vcs.None? ==> r == Failure(NotUnderVersionControl)
    ensures vcs.Some? && r.Failure? ==> exists k ::
      && 0 <= k < |files|
      && r.error == NotTracked(files[k].fileName)
      && files[k].fileName !in vcs.value
      && forall i :: 0 <= i < k ==> files[i].fileName in vcs.value
    ensures r.Success? ==> |r.value| == |files| && forall i :: 0 <= i < |files| ==>
      r.value[i] == MakeObjectMigration(files[i].fileName, files[i].content, md5)
  {
    if vcs.None? then Failure(NotUnderVersionControl)
    else
      var k := FirstUntracked(files, vcs.value);
      if k < |files| then Failure(NotTracked(files[k].fileName))
      else Success(seq(|files|, i requires 0 <= i < |files| => MakeObjectMigration(files[i].fileName, files[i].content, md5)))
  }

  /**
   `readMigrationsFromFolders`: the changesets, then the object migrations; a
   missing folder (`None`) contributes nothing. The changesets are read first,
   so their error wins.
   */
  function ReadFolders(changesets: Option<seq<SourceFile>>, objects: Option<seq<SourceFile>>, vcs: Option<set<string>>, md5: string -> Utils.Digest): (r: Result<seq<Migration>, SourceError>)
    ensures r.Success? <==>
      && (changesets.None? || ReadChangesets(changesets.value).Success?)
      && (objects.None? || ReadObjects(objects.value, vcs, md5).Success?)
    ensures changesets.Some? && ReadChangesets(changesets.value).Failure? ==> r == Failure(ReadChangesets(changesets.value).error)
    ensures
      && (changesets.None? || ReadChangesets(changesets.value).Success?)
      && objects.Some? && ReadObjects(objects.value, vcs, md5).Failure?
      ==> r == Failure(ReadObjects(objects.value, vcs, md5).error)
    ensures r.Success? ==> |r.value| == (if changesets.Some? then |changesets.value| else 0) + (if objects.Some? then |objects.value| else 0)
  {
    var cs :- if changesets.None? then Success([]) else ReadChangesets(changesets.value);
    var os :- if objects.None? then Success([]) else ReadObjects(objects.value, vcs, md5);
    Success(cs + os)
  }

  /** `readMigrationsFromArchive`: `None` when there is no archive, else one changeset per entry. */
  function ReadArchive(entries: Option<seq<SourceFile>>): (r: Result<Option<seq<Migration>>, SourceError>)
    ensures entries.None? ==> r == Success(None)
    ensures entries.Some? ==> (r.Success? <==> forall i :: 0 <= i < |entries.value| ==> ParseArchiveName(entries.value[i].fileName).Success?)
    ensures entries.Some? && r.Success? ==> r.value.Some? && |r.value.value| == |entries.value| && forall i :: 0 <= i < |entries.value| ==>
      var parsed := ParseArchiveName(entries.value[i].fileName).value;
      r.value.value[i] == MakeChangeset(parsed.0, parsed.1, entries.value[i].content)
    ensures entries.Some? && r.Failure? ==> exists k ::
      && 0 <= k < |entries.value|
      && ParseArchiveName(entries.value[k].fileName) == Failure(r.error)
      && forall i :: 0 <= i < k ==> ParseArchiveName(entries.value[i].fileName).Success?
  {
    match entries
    case None => Success(None)
    case Some(es) =>
      var ms :- ReadChangesetFiles(es, ParseArchiveName);
      Success(Some(ms))
  }

  /**
   Folder loading keeps its two groups apart: every changeset comes before every
   object migration, each group in file order.
   */
  lemma ReadFoldersOrder(cfiles: seq<SourceFile>, ofiles: seq<SourceFile>, vcs: Option<set<string>>, md5: string -> Utils.Digest)
    requires ReadFolders(Some(cfiles), Some(ofiles), vcs, md5).Success?
    ensures var ms := ReadFolders(Some(cfiles), Some(ofiles), vcs, md5).value;
      && |ms| == |cfiles| + |ofiles|
      && (forall i :: 0 <= i < |cfiles| ==> ms[i].hash == ChangesetHash && ms[i].content == Some(cfiles[i].content))
      && (forall i :: |cfiles| <= i < |ms| ==> ms[i] == MakeObjectMigration(ofiles[i - |cfiles|].fileName, ofiles[i - |cfiles|].content, md5))
  {
    var cs := ReadChangesets(cfiles).value;
    var os := ReadObjects(ofiles, vcs, md5).value;
    ReadFoldersBoth(cfiles, ofiles, vcs, md5);
    forall i | 0 <= i < |cs|
      ensures cs[i].hash == ChangesetHash && cs[i].content == Some(cfiles[i].content)
    {
      var parsed := ParseChangesetName(cfiles[i].fileName).value;
      assert cs[i] == MakeChangeset(parsed.0, parsed.1, cfiles[i].content);
    }
    GroupsInOrder(cfiles, ofiles, cs, os, md5);
  }

  lemma GroupsInOrder(cfiles: seq<SourceFile>, ofiles: seq<SourceFile>, cs: seq<Migration>, os: seq<Migration>, md5: string -> Utils.Digest)
    requires |cs| == |cfiles| && forall i :: 0 <= i < |cs| ==> cs[i].hash == ChangesetHash && cs[i].content == Some(cfiles[i].content)
    requires |os| == |ofiles| && forall i :: 0 <= i < |os| ==> os[i] == MakeObjectMigration(ofiles[i].fileName, ofiles[i].content, md5)
    ensures var ms := cs + os;
      && |ms| == |cfiles| + |ofiles|
      && (forall i :: 0 <= i < |cfiles| ==> ms[i].hash == ChangesetHash && ms[i].content == Some(cfiles[i].content))
      && (forall i :: |cfiles| <= i < |ms| ==> ms[i] == MakeObjectMigration(ofiles[i - |cfiles|].fileName, ofiles[i - |cfiles|].content, md5))
  {
  }

  lemma ReadFoldersBoth(cfiles: seq<SourceFile>, ofiles: seq<SourceFile>, vcs: Option<set<string>>, md5: string -> Utils.Digest)
    requires ReadFolders(Some(cfiles), Some(ofiles), vcs, md5).Success?
    ensures ReadFolders(Some(cfiles), Some(ofiles), vcs, md5).value == ReadChangesets(cfiles).value + ReadObjects(ofiles, vcs, md5).value
  {
  }

  /** A missing folder adds nothing to what the other one yields. */
  lemma ReadFoldersNoObjects(cfiles: seq<SourceFile>, vcs: Option<set<string>>, md5: string -> Utils.Digest)
    ensures ReadFolders(Some(cfiles), None, vcs, md5) == ReadChangesets(cfiles)
  {
    var r := ReadChangesets(cfiles);
    if r.Success? {
      assert r.value + [] == r.value;
    }
  }

  lemma ReadFoldersNoChangesets(ofiles: seq<SourceFile>, vcs: Option<set<string>>, md5: string -> Utils.Digest)
    ensures ReadFolders(None, Some(ofiles), vcs, md5) == ReadObjects(ofiles, vcs, md5)
  {
    var r := ReadObjects(ofiles, vcs, md5);
    if r.Success? {
      assert [] + r.value == r.value;
    }
  }

  /** Four decimal digits, zero-padded, as changeset file names begin. */
  function Pad4(n: int): (s: string)
    requires 0 <= n <= 9999
    ensures |s| == 4 && Int32Text.AllDigits(s)
  {
    var tens := n / 10;
    var hundreds := tens / 10;
    [Int32Text.DigitChar(hundreds / 10), Int32Text.DigitChar(hundreds % 10), Int32Text.DigitChar(tens % 10), Int32Text.DigitChar(n % 10)]
  }

  lemma Pad4Parse(n: int)
    requires 0 <= n <= 9999
    ensures Int32Text.ParseInt(Pad4(n)) == Some(n)
  {
    var s := Pad4(n);
    Int32Text.ParseFourDigits(s);
    var tens := n / 10;
    var hundreds := tens / 10;
    assert n == 10 * tens + n % 10;
    assert tens == 10 * hundreds + tens % 10;
    assert hundreds == 10 * (hundreds / 10) + hundreds % 10;
  }

  lemma NoDotSql()
    ensures '.' !in "sql"
  {
  }

  /** A folder file `NNNN_<name>.sql` gives back the number and the whole name, dots included. */
  lemma ChangesetNameRoundTrip(n: int, name: string)
    requires 0 <= n <= 9999
    ensures ParseChangesetName(Pad4(n) + "_" + name + ".sql") == Success((n, name))
  {
    var fileName := Pad4(n) + "_" + name + ".sql";
    var stem := Pad4(n) + "_" + name;
    assert fileName == stem + ".sql";
    assert fileName[|stem|] == '.';
    NoDotSql();
    assert fileName[|stem| + 1..] == "sql";
    assert WithoutExtension(fileName) == stem;
    assert stem[..4] == Pad4(n);
    assert stem[5..] == name;
    Pad4Parse(n);
  }

  /** An archive entry `NNNN_<name>.sql` whose name has no dot gives back the number and the name. */
  lemma ArchiveNameRoundTrip(n: int, name: string)
    requires 0 <= n <= 9999
    requires '.' !in name
    ensures ParseArchiveName(Pad4(n) + "_" + name + ".sql") == Success((n, name))
  {
    var fileName := Pad4(n) + "_" + name + ".sql";
    assert fileName[..4] == Pad4(n);
    assert fileName[5..] == name + ".sql";
    FirstIndexAfterPrefix(name, ".sql", '.');
    assert (name + ".sql")[..|name|] == name;
    Pad4Parse(n);
  }

  /** The two readings differ once the name holds a dot: the archive keeps only the part before it. */
  /** In the changesets folder a dotted name is kept whole, up to the extension. */
  lemma ChangesetKeepsDots(n: int, first: string, more: string)
    requires 0 <= n <= 9999
    requires '.' !in first
    ensures ParseChangesetName(Pad4(n) + "_" + first + "." + more + ".sql") == Success((n, first + "." + more))
  {
    DottedName(Pad4(n), first, more);
    ChangesetNameRoundTrip(n, first + "." + more);
  }

  /** In the archive the same file name keeps only the part before the first dot. */
  lemma ArchiveDropsAfterDot(n: int, first: string, more: string)
    requires 0 <= n <= 9999
    requires '.' !in first
    ensures ParseArchiveName(Pad4(n) + "_" + first + "." + more + ".sql") == Success((n, first))
  {
    DottedName(Pad4(n), first, more);
    ArchiveFirstSegment(n, first, "." + more + ".sql");
  }

  /**
   An archive entry's name is its whole path inside the archive, so an entry
   stored in a folder fails: its first four characters are not a number.
   */
  lemma ArchiveEntryInFolderRefused(content: string)
    ensures ReadArchive(Some([SourceFile("scripts/0001_a.sql", content)])) == Failure(InvalidName("scripts/0001_a.sql", NotANumber))
  {
    var name := "scripts/0001_a.sql";
    assert name[..4] == "scri";
    assert !Int32Text.IsNumberChar(name[..4][0]);
  }

  lemma DottedName(digits: string, first: string, more: string)
    ensures digits + "_" + first + "." + more + ".sql" == digits + "_" + (first + "." + more) + ".sql"
    ensures digits + "_" + first + "." + more + ".sql" == digits + "_" + first + ("." + more + ".sql")
  {
  }

  lemma ArchiveFirstSegment(n: int, first: string, tail: string)
    requires 0 <= n <= 9999
    requires '.' !in first && |tail| > 0 && tail[0] == '.'
    ensures ParseArchiveName(Pad4(n) + "_" + first + tail) == Success((n, first))
  {
    var fileName := Pad4(n) + "_" + first + tail;
    assert fileName[..4] == Pad4(n);
    assert fileName[5..] == first + tail;
    FirstIndexAfterPrefix(first, tail, '.');
    assert (first + tail)[..|first|] == first;
    Pad4Parse(n);
  }

  /** The prefix the database name follows in a connection string. */
  const DataSourceKey: string := "Data Source="

  /** `Data Source=([^;]+);` matches at `i`: the key, at least one character that is not `;`, then `;`. */
  predicate DataSourceAt(s: string, i: int) {
    && OccursAt(s, DataSourceKey, i)
    && 0 < FirstIndexOf(s[i + |DataSourceKey|..], ';') < |s| - i - |DataSourceKey|
  }

  /** The captured group of a match at `i`. */
  function DbNameAt(s: string, i: int): (name: string)
    requires DataSourceAt(s, i)
    ensures 0 < |name| < |s| - i - |DataSourceKey| && ';' !in name
    ensures s[i + |DataSourceKey|..][|name|] == ';'
  {
    var value := s[i + |DataSourceKey|..];
    value[..FirstIndexOf(value, ';')]
  }

  /** The leftmost match at or after `from`, as `Regex.Match` finds it. */
  function FirstDataSource(s: string, from: nat): (r: Option<nat>)
    requires from <= |s|
    ensures r.Some? ==> from <= r.value <= |s| && DataSourceAt(s, r.value)
    ensures r.Some? ==> forall j :: from <= j < r.value ==> !DataSourceAt(s, j)
    ensures r.None? ==> forall j :: from <= j <= |s| ==> !DataSourceAt(s, j)
    decreases |s| - from
  {
    if DataSourceAt(s, from) then Some(from)
    else if from == |s| then None
    else FirstDataSource(s, from + 1)
  }

  /** `extractDbName`: the group of the leftmost match, or `""` when nothing matches. */
  function ExtractDbName(connString: string): (name: string)
    ensures ';' !in name
    ensures name == "" <==> forall i :: 0 <= i <= |connString| ==> !DataSourceAt(connString, i)
    ensures forall i :: 0 <= i <= |connString| && DataSourceAt(connString, i) && (forall j :: 0 <= j < i ==> !DataSourceAt(connString, j)) ==>
      name == DbNameAt(connString, i)
  {
    match FirstDataSource(connString, 0)
    case None => ""
    case Some(i) =>
      assert forall k :: 0 <= k <= |connString| && DataSourceAt(connString, k) && (forall j :: 0 <= j < k ==> !DataSourceAt(connString, j)) ==> k == i;
      DbNameAt(connString, i)
  }

  /** A connection string that starts with the key gives back the text up to the first `;`. */
  lemma ExtractDbNameLeading(db: string, rest: string)
    requires |db| > 0 && ';' !in db
    ensures ExtractDbName(DataSourceKey + db + ";" + rest) == db
  {
    var s := DataSourceKey + db + ";" + rest;
    assert s[..|DataSourceKey|] == DataSourceKey;
    assert s[|DataSourceKey|..] == db + (";" + rest);
    FirstIndexAfterPrefix(db, ";" + rest, ';');
    assert DataSourceAt(s, 0);
    assert (db + (";" + rest))[..|db|] == db;
  }
}

=== FILE: strings.dfy ===
/**
 The handful of .NET string operations the migrator relies on, with the
 semantics of the framework: `char.IsWhiteSpace`, `TrimEnd()`, ordinal
 `LastIndexOf(char)`, `Replace(string, string)` (leftmost, non-overlapping),
 and the line structure seen by a multiline regular expression.
 */
module Strings {

  /** `char.IsWhiteSpace`: the Unicode separators plus U+0009..U+000D and U+0085. */
  predicate IsWhiteSpace(c: char) {
    || ('\t' <= c <= '\r')
    || c == ' '
    || c == '\U{85}'
    || c == '\U{A0}'
    || c == '\U{1680}'
    || ('\U{2000}' <= c <= '\U{200A}')
    || c == '\U{2028}'
    || c == '\U{2029}'
    || c == '\U{202F}'
    || c == '\U{205F}'
    || c == '\U{3000}'
  }

  /** `string.IsNullOrWhiteSpace` on a non-null string. */
  predicate IsBlank(s: string) {
    forall i :: 0 <= i < |s| ==> IsWhiteSpace(s[i])
  }

  /** A text is blank exactly when trimming its end leaves nothing. */
  lemma BlankIffTrimmedEmpty(s: string)
    ensures IsBlank(s) <==> TrimEnd(s) == ""
  {
  }

  /** `TrimEnd()`: the longest prefix of `s` that does not end in white space. */
  function TrimEnd(s: string): (r: string)
    ensures r <= s
    ensures |r| == 0 || !IsWhiteSpace(r[|r| - 1])
    ensures forall i :: |r| <= i < |s| ==> IsWhiteSpace(s[i])
  {
    if |s| == 0 || !IsWhiteSpace(s[|s| - 1]) then s else TrimEnd(s[..|s| - 1])
  }

  /** Lower-cases the ASCII letters; every other character is kept. */
  function LowerChar(c: char): char {
    if 'A' <= c <= 'Z' then (c as int + 32) as char else c
  }

  /** Ordinal `ToLower()`: no capital ASCII letter is left, and only those letters change, each to its small form. */
  function ToLower(s: string): (r: string)
    ensures |r| == |s|
    ensures forall i :: 0 <= i < |s| ==> !('A' <= r[i] <= 'Z')
    ensures forall i :: 0 <= i < |s| && r[i] != s[i] ==> 'A' <= s[i] <= 'Z' && r[i] as int == s[i] as int + 32
  {
    seq(|s|, i requires 0 <= i < |s| => LowerChar(s[i]))
  }

  /** Lower-casing twice is lower-casing once. */
  lemma ToLowerIdempotent(s: string)
    ensures ToLower(ToLower(s)) == ToLower(s)
  {
  }

  /** `pat` occurs in `s` starting at index `i`. */
  predicate OccursAt(s: string, pat: string, i: int) {
    0 <= i && i + |pat| <= |s| && s[i..i + |pat|] == pat
  }

  /** Ordinal `s.IndexOf(pat) != -1`. */
  predicate Contains(s: string, pat: string) {
    exists i :: 0 <= i <= |s| - |pat| && OccursAt(s, pat, i)
  }

  /** Ordinal `s.LastIndexOf(c)`: the last index holding `c`, or -1. */
  function LastIndexOf(s: string, c: char): (r: int)
    ensures -1 <= r < |s|
    ensures 0 <= r ==> s[r] == c
    ensures forall j :: r < j < |s| ==> s[j] != c
  {
    if |s| == 0 then -1
    else if s[|s| - 1] == c then |s| - 1
    else LastIndexOf(s[..|s| - 1], c)
  }

  /** The first index holding `c`, or `|s|` when there is none. */
  function FirstIndexOf(s: string, c: char): (r: nat)
    ensures r <= |s|
    ensures r < |s| ==> s[r] == c
    ensures forall j :: 0 <= j < r ==> s[j] != c
  {
    if |s| == 0 || s[0] == c then 0 else 1 + FirstIndexOf(s[1..], c)
  }

  /**
   `s.Replace(pat, rep)`: scans left to right, replaces each occurrence of `pat`
   and resumes after it, so occurrences never overlap and replaced text is not
   scanned again.
   */
  function Replace(s: string, pat: string, rep: string): string
    requires |pat| > 0
    decreases |s|
  {
    if |s| < |pat| then s
    else if s[..|pat|] == pat then rep + Replace(s[|pat|..], pat, rep)
    else [s[0]] + Replace(s[1..], pat, rep)
  }

  /** `s` with every `c` removed. */
  function Remove(s: string, c: char): (r: string)
    ensures c !in r
    ensures multiset(r) == multiset(s)[c := 0]
  {
    if |s| == 0 then ""
    else
      assert s == [s[0]] + s[1..];
      if s[0] == c then Remove(s[1..], c) else [s[0]] + Remove(s[1..], c)
  }

  /** Removal works character by character: it distributes over concatenation, so the kept characters stay in order. */
  lemma {:induction false} RemoveAppend(a: string, b: string, c: char)
    ensures Remove(a + b, c) == Remove(a, c) + Remove(b, c)
    decreases |a|
  {
    if |a| == 0 {
      assert a + b == b;
    } else {
      var t := a[1..];
      var h := if a[0] == c then "" else [a[0]];
      calc {
        Remove(a + b, c);
      == { assert a + b == [a[0]] + (t + b); RemoveCons(a[0], t + b, c); }
        h + Remove(t + b, c);
      == { RemoveAppend(t, b, c); }
        h + (Remove(t, c) + Remove(b, c));
      == { Associative(h, Remove(t, c), Remove(b, c)); }
        (h + Remove(t, c)) + Remove(b, c);
      == { assert a == [a[0]] + t; RemoveCons(a[0], t, c); }
        Remove(a, c) + Remove(b, c);
      }
    }
  }

  lemma Associative<T>(a: seq<T>, b: seq<T>, c: seq<T>)
    ensures (a + b) + c == a + (b + c)
  {
  }

  lemma RemoveCons(x: char, t: string, c: char)
    ensures Remove([x] + t, c) == (if x == c then "" else [x]) + Remove(t, c)
  {
    assert ([x] + t)[0] == x && ([x] + t)[1..] == t;
  }

  /** One character is dropped exactly when it is the one removed. */
  lemma RemoveOne(x: char, c: char)
    ensures Remove([x], c) == if x == c then "" else [x]
  {
    assert [x][1..] == "";
  }

  /** Replacing a string that does not occur leaves the text as it is. */
  lemma {:induction false} ReplaceAbsent(s: string, pat: string, rep: string)
    requires |pat| > 0
    requires !Contains(s, pat)
    ensures Replace(s, pat, rep) == s
    decreases |s|
  {
    if |s| >= |pat| {
      assert OccursAt(s, pat, 0) == (s[..|pat|] == pat);
      assert !Contains(s[1..], pat) by {
        forall i | 0 <= i <= |s[1..]| - |pat| && OccursAt(s[1..], pat, i)
          ensures false
        {
          assert s[1..][i..i + |pat|] == s[i + 1..i + 1 + |pat|];
          assert OccursAt(s, pat, i + 1);
        }
      }
      ReplaceAbsent(s[1..], pat, rep);
    }
  }

  /**
   The leftmost occurrence is the one replaced: when `pat` first occurs right
   after `a`, the text up to it is kept, that occurrence becomes `rep` and the
   scan resumes after it. With `ReplaceAbsent` this fixes `Replace` on every input.
   */
  lemma {:induction false} ReplaceLeftmost(a: string, pat: string, rep: string, b: string)
    requires |pat| > 0
    requires forall k :: 0 <= k < |a| ==> !OccursAt(a + pat + b, pat, k)
    ensures Replace(a + pat + b, pat, rep) == a + rep + Replace(b, pat, rep)
    decreases |a|
  {
    var s := a + pat + b;
    if |a| == 0 {
      assert s == pat + b && s[..|pat|] == pat && s[|pat|..] == b;
      assert a + rep == rep;
    } else {
      assert !OccursAt(s, pat, 0);
      var t := a[1..] + pat + b;
      assert s[1..] == t;
      forall k | 0 <= k < |a[1..]|
        ensures !OccursAt(t, pat, k)
      {
        assert !OccursAt(s, pat, k + 1);
        if k + |pat| <= |t| {
          assert t[k..k + |pat|] == s[k + 1..k + 1 + |pat|];
        }
      }
      ReplaceLeftmost(a[1..], pat, rep, b);
      assert Replace(s, pat, rep) == [a[0]] + (a[1..] + rep + Replace(b, pat, rep));
      assert a == [a[0]] + a[1..];
    }
  }

  /** Replacing a single character by nothing is removing it: `Replace("\r", "")`. */
  lemma {:induction false} ReplaceCharByNothing(s: string, c: char)
    ensures Replace(s, [c], "") == Remove(s, c)
  {
    if |s| > 0 {
      ReplaceCharByNothing(s[1..], c);
      assert s[..1] == [s[0]];
      if s[0] == c {
        assert Replace(s, [c], "") == "" + Replace(s[1..], [c], "");
      } else {
        assert Replace(s, [c], "") == [s[0]] + Replace(s[1..], [c], "");
      }
    }
  }

  /**
   The lines of `s` as a `RegexOptions.Multiline` pattern sees them: the pieces
   between `'\n'` characters (a `'\r'` stays part of its line).
   */
  function Lines(s: string): (ls: seq<string>)
    ensures |ls| >= 1
    ensures forall k :: 0 <= k < |ls| ==> '\n' !in ls[k]
    decreases |s|
  {
    var i := FirstIndexOf(s, '\n');
    if i == |s| then [s] else [s[..i]] + Lines(s[i + 1..])
  }

  /** Joins lines with `'\n'`, the inverse of `Lines`. */
  function Unlines(ls: seq<string>): string
    requires |ls| >= 1
  {
    if |ls| == 1 then ls[0] else ls[0] + "\n" + Unlines(ls[1..])
  }

  lemma UnlinesCons(line: string, ls: seq<string>)
    requires |ls| >= 1
    ensures Unlines([line] + ls) == line + "\n" + Unlines(ls)
  {
    assert ([line] + ls)[1..] == ls;
  }

  lemma SplitAround(s: string, i: nat)
    requires i < |s| && s[i] == '\n'
    ensures s == s[..i] + "\n" + s[i + 1..]
  {
  }

  lemma {:induction false} UnlinesLines(s: string)
    ensures Unlines(Lines(s)) == s
    decreases |s|
  {
    var i := FirstIndexOf(s, '\n');
    if i < |s| {
      var rest := s[i + 1..];
      UnlinesLines(rest);
      UnlinesCons(s[..i], Lines(rest));
      assert Lines(s) == [s[..i]] + Lines(rest);
      SplitAround(s, i);
    }
  }

  lemma {:induction false} LinesUnlines(ls: seq<string>)
    requires |ls| >= 1
    requires forall k :: 0 <= k < |ls| ==> '\n' !in ls[k]
    ensures Lines(Unlines(ls)) == ls
  {
    var s := Unlines(ls);
    FirstIndexNotIn(ls[0], '\n');
    if |ls| == 1 {
    } else {
      var rest := Unlines(ls[1..]);
      assert s == ls[0] + ("\n" + rest);
      FirstIndexAfterPrefix(ls[0], "\n" + rest, '\n');
      assert s[|ls[0]| + 1..] == rest;
      assert s[..|ls[0]|] == ls[0];
      LinesUnlines(ls[1..]);
    }
  }

  lemma FirstIndexNotIn(s: string, c: char)
    requires c !in s
    ensures FirstIndexOf(s, c) == |s|
  {
  }

  lemma FirstIndexAfterPrefix(a: string, b: string, c: char)
    requires c !in a
    requires |b| > 0 && b[0] == c
    ensures FirstIndexOf(a + b, c) == |a|
  {
    assert (a + b)[|a|] == c;
    assert forall j :: 0 <= j < |a| ==> (a + b)[j] == a[j];
  }
}

=== FILE: utils.dfy ===
/**
 `Utils.ComputeMd5Hash`: the MD5 digest of a string, written as lower-case
 hexadecimal, two characters per byte (`b.ToString("x2")`). MD5 itself, and
 the UTF-8 encoding of its input, are a function parameter `md5`.
 */
module Utils {

  type byte = x: int | 0 <= x < 256

  /** A 16-byte MD5 digest. */
  type Digest = d: seq<byte> | |d| == 16
    witness [0, 0, 0, 0, 0, 0, 0, 0, 0, 0, 0, 0, 0, 0, 0, 0]

  predicate IsHexChar(c: char) {
    ('0' <= c <= '9') || ('a' <= c <= 'f')
  }

  predicate IsHexString(s: string) {
    forall i :: 0 <= i < |s| ==> IsHexChar(s[i])
  }

  /** The lower-case digit of a nibble: `0-9`, then `a-f`. */
  function HexChar(n: int): (c: char)
    requires 0 <= n < 16
    ensures IsHexChar(c)
  {
    if n < 10 then (n + '0' as int) as char else (n - 10 + 'a' as int) as char
  }

  /** The nibble a lower-case hex character stands for; inverse of `HexChar`. */
  function NibbleOf(c: char): (n: int)
    requires IsHexChar(c)
    ensures 0 <= n < 16 && HexChar(n) == c
    ensures forall m :: 0 <= m < 16 && HexChar(m) == c ==> m == n
  {
    if c <= '9' then c as int - '0' as int else c as int - 'a' as int + 10
  }

  /** `b.ToString("x2")`: high nibble, then low nibble. */
  function ByteHex(b: byte): string {
    [HexChar(b / 16), HexChar(b % 16)]
  }

  /** The hex string of a byte sequence, in byte order. */
  function Hex(data: seq<byte>): (s: string)
    ensures |s| == 2 * |data|
  {
    if |data| == 0 then "" else ByteHex(data[0]) + Hex(data[1..])
  }

  /** Reads a hex string back into bytes, two characters per byte. */
  function Unhex(s: string): (data: seq<byte>)
    requires |s| % 2 == 0 && IsHexString(s)
    ensures |data| * 2 == |s|
  {
    if |s| == 0 then [] else [NibbleOf(s[0]) * 16 + NibbleOf(s[1])] + Unhex(s[2..])
  }

  /**
   Byte `i` of the digest is written at positions `2i` and `2i+1`, high nibble
   first, so the text keeps the digest's byte order; every character is one of
   `0-9a-f`.
   */
  lemma {:induction false} HexLayout(data: seq<byte>)
    ensures IsHexString(Hex(data))
    ensures forall i :: 0 <= i < |data| ==>
      Hex(data)[2 * i] == HexChar(data[i] / 16) && Hex(data)[2 * i + 1] == HexChar(data[i] % 16)
  {
    if |data| > 0 {
      HexLayout(data[1..]);
      var s := Hex(data);
      var t := Hex(data[1..]);
      assert s == ByteHex(data[0]) + t;
      forall i | 0 <= i < |data|
        ensures s[2 * i] == HexChar(data[i] / 16) && s[2 * i + 1] == HexChar(data[i] % 16)
      {
        if i > 0 {
          assert s[2 * i] == t[2 * (i - 1)];
          assert s[2 * i + 1] == t[2 * (i - 1) + 1];
          assert data[i] == data[1..][i - 1];
        }
      }
      forall j | 0 <= j < |s|
        ensures IsHexChar(s[j])
      {
        if j >= 2 {
          assert s[j] == t[j - 2];
        }
      }
    }
  }

  lemma {:induction false} HexAppend(a: seq<byte>, b: seq<byte>)
    ensures Hex(a + b) == Hex(a) + Hex(b)
  {
    if |a| == 0 {
      assert a + b == b;
    } else {
      assert (a + b)[1..] == a[1..] + b;
      HexAppend(a[1..], b);
    }
  }

  lemma {:induction false} UnhexHex(data: seq<byte>)
    ensures IsHexString(Hex(data)) && Unhex(Hex(data)) == data
  {
    HexLayout(data);
    if |data| > 0 {
      var s := Hex(data);
      assert s == ByteHex(data[0]) + Hex(data[1..]);
      assert s[2..] == Hex(data[1..]);
      var b := data[0];
      assert NibbleOf(HexChar(b / 16)) == b / 16;
      assert NibbleOf(HexChar(b % 16)) == b % 16;
      UnhexHex(data[1..]);
    }
  }

  /** Distinct digests never share a hex string. */
  lemma HexInjective(a: seq<byte>, b: seq<byte>)
    requires Hex(a) == Hex(b)
    ensures a == b
  {
    UnhexHex(a);
    UnhexHex(b);
  }

  /** The hash text of `input`, built one byte at a time as the source's loop does. */
  method ComputeMd5Hash(input: string, md5: string -> Digest) returns (hash: string)
    ensures |hash| == 32
    ensures IsHexString(hash)
    ensures Unhex(hash) == md5(input)
  {
    var data := md5(input);
    hash := "";
    var i := 0;
    while i < |data|
      invariant 0 <= i <= |data|
      invariant hash == Hex(data[..i])
    {
      HexAppend(data[..i], [data[i]]);
      assert data[..i + 1] == data[..i] + [data[i]];
      hash := hash + ByteHex(data[i]);
      i := i + 1;
    }
    assert data[..i] == data;
    HexLayout(data);
    UnhexHex(data);
  }
}

=== FILE: wrappers.dfy ===
/** Option and Result: the null references and exceptions of the migrator, as values. */
module Wrappers {

  /** A value that may be absent (a C# null). */
  datatype Option<+T> = None | Some(value: T)

  /** Either a value or the error that the source would have thrown. */
  datatype Result<+T, +E> = Success(value: T) | Failure(error: E) {

    predicate IsFailure() {
      Failure?
    }

    function PropagateFailure<U>(): Result<U, E>
      requires Failure?
    {
      Failure(error)
    }

    function Extract(): T
      requires Success?
    {
      value
    }
  }
}
